=== FILE: README.md ===
# Loan application wizard: the decision layer

This project models in Dafny the decision layer of a browser-based loan application wizard (`script.js`). The wizard leads an applicant through these pages:
- loan-type selection (step 0);
- basic details (1);
- personal details (2);
- income details (3);
- the offer (4);
- document upload (5);
- final approval (6);
- a thank-you page (7).

The model covers what the page decides, leaving out how it draws:

- **Field validators** (`Validators`, on top of `Regex` and `Chars`). Mobile number, PAN, Aadhar number and e-mail address are each the `test` of an anchored regular expression. The model has a small matcher for the pattern fragment they use. Each validator is proved equal to a plain character-level description. `\s` and `String.prototype.trim` use the ECMA-262 whitespace set (`Chars.IsWhitespace`).
- **`parseFloat` and comparisons with zero** (`JsNumber`). `parseFloat` takes the longest prefix that is a decimal literal or `Infinity`, after whitespace and an optional sign. The result is NaN, a signed infinity, or an exact real. Every comparison against NaN is false.
- **Per-step checks** (`StepChecks`). Each check is a list of rules run in order. Every failing rule shows its error and clears the result, and no rule is skipped. `validateCurrentStep` dispatches on the step. The basic-details check also stores the accepted loan amount.
- **The step state machine** (`Wizard`):
  - `nextStep`, `prevStep`, `startApplication`;
  - the `show*` jumps;
  - `resetApplication`;
  - the selection-button handler with its vehicle sub-type flag;
  - the upload handler;
  - which section and which progress-stepper classes the page shows.
- **The upload tracker** (`Uploads`). Uploads are a map from document id to file metadata. Two different completeness checks read it: a count of recorded keys (the step check) and "every required id present" (the proceed button).

`FormStore` models the in-memory record `formData` and how a save copies the page's `input` elements into it. `StepExamples` holds the all-empty basic-details scenario.

The page's controls are a parameter of every transition. The checks read them as `StepChecks.Fields` and the save reads them as a list of `input` elements. Storage keeps the record itself rather than its JSON text.

Behaviours of the code worth knowing:
- **Loan selection.** The selection check passes as soon as any selection button is active (`script.js:212`).
- **Failed basic-details check.** An accepted loan amount is stored in the record even when another field of the step fails (`script.js:253-258`).
- **Upload step.** The step check counts recorded keys, whatever their ids (`script.js:222-224`).
- **Remaining count.** Both the "remaining" message and the proceed-button label compute 4 minus the number of recorded keys, so the label can ask for "-1 more" documents (`script.js:225`, `script.js:583`).
- **Vehicle sub-type flag.** A value other than `vehicle` hides the sub-type section only when it is clicked in the group that offers `vehicle` (`script.js:32-38`).
- **Stored loan amount.** A non-numeric amount passes its check, and NaN is stored as the loan amount (`StepChecks.NonNumericAmountAccepted`).
- **Final approval.** `showFinalApproval` opens step 6 from any step, without running the upload check (`script.js:519-522`).

## Model

| member | source | states |
|---|---|---|
| Chars.TrimSpec | script.js:232-235 | `trim` removes only whitespace, from both ends, and keeps one contiguous slice that neither starts nor ends with whitespace |
| Chars.TrimStartSpec | script.js:253 | the whitespace skip before `parseFloat` reads a number removes a whitespace prefix and stops at the first other character |
| Chars.TrimEmptyIff | script.js:243 | a trimmed value is empty (`!fullName`) exactly when the raw value is all whitespace |
| Chars.StripWhitespace | script.js:711 | `replace(/\s/g, '')` leaves no whitespace and never lengthens the text |
| Chars.StripConcat | script.js:711 | whitespace removal distributes over concatenation |
| Chars.StripKeepsSpaceless | script.js:711 | text without whitespace is left unchanged by the removal |
| Chars.StripIgnoresInsertedSpace | script.js:711 | a whitespace character inserted anywhere disappears in the removal |
| Regex.SinglePiece | script.js:711 | an anchored single repeated class (`^\d{12}$`) matches exactly the strings of an allowed length made of that class |
| Regex.FixedHead | script.js:703 | a class repeated exactly n times at the head of a pattern consumes exactly the next n characters |
| Validators.DigitsAreDigits | script.js:703 | `\d` and `[0-9]` accept exactly the ASCII digits |
| Validators.ValidMobileIff | script.js:702-704 | `validateMobile` holds exactly for ten ASCII digits starting with 6, 7, 8 or 9 |
| Validators.ValidPanIff | script.js:706-708 | `validatePAN` holds exactly for five capitals, four digits and one capital |
| Validators.ValidAadharIff | script.js:710-712 | `validateAadhar` holds exactly when the text with all whitespace removed is twelve ASCII digits |
| Validators.AadharIgnoresWhitespace | script.js:710-712 | inserting whitespace anywhere never changes the Aadhar verdict |
| Validators.DomainSound | script.js:715 | what the domain half of the e-mail pattern matches has no whitespace or `@` and a dot that is neither first nor last |
| Validators.DomainComplete | script.js:715 | every such domain is matched by the domain half of the pattern |
| Validators.EmailSound | script.js:714-716 | an accepted e-mail has no whitespace, exactly one `@` with text before it, and a domain with an inner dot |
| Validators.EmailComplete | script.js:714-716 | every text of that shape is accepted |
| Validators.ValidEmailIff | script.js:714-716 | `validateEmail` holds exactly for texts of that shape |
| Validators.MobileExamples | script.js:702-704 | `9876543210` is accepted and `5876543210` rejected |
| Validators.PanExamples | script.js:706-708 | `ABCDE1234F` is accepted and `ABCD1234F` rejected |
| Validators.AadharGroupedAccepted | script.js:710-712 | twelve digits written in three space-separated groups of four are accepted |
| Validators.AadharShortRejected | script.js:710-712 | `12345` is rejected |
| Validators.EmailExamples | script.js:714-716 | `a.b@mail.co` is accepted; `a@b` (no dot) and `a@b@c.in` (two `@`) are rejected |
| JsNumber.Rounded | script.js:253 | rounding a real to a double never yields NaN; the result is negative only for a negative input, and a negative input that does not underflow stays negative; the result is `<= 0` exactly up to the underflow limit |
| JsNumber.ScanDecimalNoneIff | script.js:253 | no decimal literal can be read exactly when the text starts with neither a digit nor a dot followed by a digit |
| JsNumber.ParseFloatNaNIff | script.js:253 | `parseFloat` gives NaN exactly when, after whitespace and one sign, the text starts neither with `Infinity`, nor a digit, nor a dot and a digit |
| JsNumber.WordsAreNaN | script.js:334 | empty or blank text, and text whose first visible character is a letter other than `I`, parse to NaN |
| JsNumber.DigitsValueZeroIff | script.js:253 | a digit string has value zero exactly when every digit is `0` |
| JsNumber.DigitsUnsigned | script.js:253 | a digit string has no leading whitespace or sign and does not start `Infinity` |
| JsNumber.DigitsScan | script.js:253 | a digit string is read in full as a whole number with no exponent |
| JsNumber.PlainDigitsParse | script.js:253 | `parseFloat` of a digit string is that whole number, rounded to a double |
| JsNumber.DigitStringSign | script.js:253 | a digit string parses to a number that is never NaN, never negative, and `<= 0` exactly when all digits are `0` |
| FormStore.SaveInputsAt | script.js:412-420 | after a save a key is present exactly when it was before or some input has that id; it holds the last such input's text or checkbox state; keys no input has keep their value |
| FormStore.SaveSelections | script.js:425-434 | the selections snapshot replaces the `selections` entry and nothing else |
| Uploads.Record | script.js:545-550 | an upload creates or overwrites the entry for its box and keeps every other entry; the count grows by one exactly when the box had no entry |
| Uploads.RequiredSetSize | script.js:573 | the four required ids are distinct |
| Uploads.AllRequiredIff | script.js:572-574 | the proceed-button check holds exactly when the four required ids are among the recorded keys |
| Uploads.RequiredImpliesCount | script.js:220-229 | all four required documents present implies the step check passes and nothing is reported missing |
| Uploads.ChecksAgreeOnRequiredIds | script.js:220-229 | when only required ids are ever recorded, the count check and the required-ids check agree |
| Uploads.ChecksDiverge | script.js:220-229 | four unrelated ids pass the count check but not the required-ids check |
| Uploads.LabelCountGoesNegative | script.js:583 | three required documents plus two unrelated ones make the proceed button ask for "-1 more" |
| Uploads.FourthDocumentCompletes | script.js:572-586 | with three of the four required documents neither check passes and one is missing; recording the fourth completes both |
| StepChecks.RunPrefixReports | script.js:241-270 | after any prefix of a check's rules, the result holds exactly when none of them failed, and the errors shown are exactly those of the failing rules |
| StepChecks.RunReportsEveryFailure | script.js:241-270 | a check passes exactly when no rule fails, shows exactly the failing rules' errors, and passes exactly when it shows none |
| StepChecks.RunPrefixAgree | script.js:241-270 | a prefix's outcome depends only on the rules in it |
| StepChecks.RunSnoc | script.js:241-270 | one more rule adds its error when it fails and clears the result, without changing what came before |
| StepChecks.RunAppend | script.js:241-270 | running two rule lists in turn is running their concatenation: errors concatenate and the results combine with "and" |
| StepChecks.RulesReport | script.js:241-270 | with distinct errors, each error is shown exactly when its own condition holds |
| StepChecks.RulesAllFail | script.js:241-270 | when every rule fails, every error is shown, in rule order |
| StepChecks.StoreLoanAmount | script.js:253-258 | an amount that passes its rule is stored as the parsed number; a rejected amount leaves the record unchanged; no other key changes |
| StepChecks.FailuresDistinct | script.js:243-376 | each step's errors belong to different fields |
| StepChecks.BasicDetailsLayout | script.js:243-268 | the five basic-details rules in form order: each error is shown exactly when its own rule fails |
| StepChecks.PersonalDetailsLayout | script.js:289-337 | the ten personal-details rules in form order: each error is shown exactly when its own rule fails |
| StepChecks.IncomeDetailsLayout | script.js:353-376 | the five income-details rules in form order: each error is shown exactly when its own rule fails |
| StepChecks.BasicDetailsRaw | script.js:231-270 | each basic-details error appears exactly when the trimmed field is empty or fails its validator, or the OVD box is unticked |
| StepChecks.BasicDetailsReport | script.js:231-270 | each basic-details error appears exactly when that field is wrong (name all blank, mobile or PAN of the wrong shape, amount empty or parsing to a number `<= 0`, so non-numeric text passes, box unticked), whatever the others hold; the step passes exactly when none does |
| StepChecks.BasicDetailsAllFail | script.js:241-270 | when all five basic-details rules fail, all five errors are shown in form order and the step fails |
| StepChecks.LoanAmountRule | script.js:253-255 | the loan-amount error is shown exactly when the trimmed amount is empty or parses to a number `<= 0` |
| StepChecks.LoanAmountStoredOnlyWhenAccepted | script.js:253-258 | `formData.loanAmount` changes only when the amount error is not shown, and then becomes the parsed amount |
| StepChecks.NonNumericAmountAccepted | script.js:253-258 | a non-empty amount that parses to NaN passes its rule, and NaN is stored as the loan amount |
| StepChecks.DigitAmountRule | script.js:253-255 | an amount of plain digits is rejected exactly when it is all zeros |
| StepChecks.PersonalDetailsRaw | script.js:273-340 | each personal-details error appears exactly when its own condition in the source holds |
| StepChecks.PersonalDetailsReport | script.js:273-340 | each personal-details error appears exactly when that field is wrong in character terms; the CIF number is required only when `existingCustomer` is `yes` |
| StepChecks.IncomeDetailsRaw | script.js:342-379 | each income-details error appears exactly when its own condition in the source holds |
| StepChecks.IncomeDetailsReport | script.js:342-379 | each income-details error appears exactly when that field is wrong in character terms |
| StepChecks.BlankYearsAccepted | script.js:334-337 | years at residence given as a single space pass, because the value is not trimmed and parses to NaN |
| StepChecks.LoanSelectionVerdict | script.js:211-218 | the selection step passes exactly when some selection is active |
| StepChecks.DocumentUploadVerdict | script.js:220-229 | the upload step passes exactly when at least four keys are recorded; otherwise it reports between 1 and 4 remaining |
| StepChecks.OnlyBasicDetailsWritesForm | script.js:192-208 | no check except basic details writes to the form record |
| StepChecks.UncheckedStepsPass | script.js:202-207 | the offer page and every step from 6 on pass without reporting anything |
| StepExamples.EmptyBasicFieldsFail | script.js:243-268 | empty name, mobile number, amount and PAN each fail their rule |
| StepExamples.BasicDetailsAllEmpty | script.js:241-270 | with those four fields empty and the OVD box unticked, exactly the four field errors and the OVD error are shown, in form order, and the step fails |
| Wizard.NextStepMoves | script.js:86-103 | `nextStep` advances by exactly one when the current check passes; otherwise the step, the stored copy and the stepper stay as they were; uploads, selections and the sub-type flag never change |
| Wizard.FailedCheckKeepsState | script.js:86-103 | after a failed check nothing changes, except that step 1 may store the accepted loan amount |
| Wizard.NextStepNeverBlocked | script.js:86-103 | from step 4 and every step from 6 on, `nextStep` always advances; moving forward from step 7 or later reaches a step that shows no section |
| Wizard.NextStepSavesInputs | script.js:86-90 | a successful `nextStep` saves every input under its id (the last input with an id wins), keeps other keys, and stores a copy of the record |
| Wizard.PrevStepMoves | script.js:105-121 | `prevStep` steps back by exactly one above the selection page, does nothing there, and never touches the record, uploads, selections, stored copy or sub-type section |
| Wizard.PrevStepIdempotentAtStart | script.js:105-107 | at the selection page, repeated `prevStep` changes nothing |
| Wizard.PrevUndoesNext | script.js:86-121 | going back after a successful `nextStep` returns to the step the wizard was on |
| Wizard.RepeatedBack | script.js:105-121 | `k` presses of back move `k` steps back, stopping at the selection page |
| Wizard.ShowDocumentUploadForward | script.js:512-517 | `showDocumentUpload` moves to step 5 only from below it, otherwise changes nothing, and is idempotent; moving there changes only the step |
| Wizard.ShowLoanSelectionEffects | script.js:507-510 | `showLoanSelection` opens the selection page from any step, with the stepper hidden, and leaves the record, uploads, selections and stored copy alone |
| Wizard.ShowFinalApprovalEffects | script.js:519-522 | `showFinalApproval` opens the final-approval page from any step, with the stepper hidden, leaving the record, uploads, selections and stored copy alone; from the upload page it gets there even when the upload check fails |
| Wizard.ShowThankYouEffects | script.js:763-770 | `showThankYou` ends on the thank-you page from any step, with the stepper hidden, leaving the record, uploads, selections and stored copy alone |
| Wizard.StartApplicationStoresSelections | script.js:123-128 | `startApplication` opens step 1, stores the current selections under `selections`, keeps every other key, and stores a copy; uploads, selections and the sub-type section are unchanged |
| Wizard.SelectEffects | script.js:25-38 | a click makes its value its group's selection, keeps other groups' selections, and makes the selection check pass; the sub-type section is shown exactly when `vehicle` was clicked, or it was shown and the group does not offer `vehicle`; the click writes neither the record nor storage, and leaves the step, uploads and stepper alone |
| Wizard.AttachFileEffects | script.js:529-550 | a file over 5 MB changes nothing; any other file is recorded under its box id, and only a box with no earlier file adds to the count; the step, record, selections, stored copy and stepper are unchanged, so uploads are never stored |
| Wizard.ResetRestoresDefaults | script.js:472-480 | reset gives step 0, no uploads, no selections, nothing stored, and exactly the record `{loanAmount: 1000000, interestRate: 8.5, tenure: 84}`; two states reset alike exactly when their stepper and sub-type section agree; resetting twice is resetting once |
| Wizard.StepperVisibleIff | script.js:141-145 | the stepper is shown exactly on steps 1 to 4, the steps whose section is a form step |
| Wizard.SectionPerStep | script.js:149-169 | each of the steps 0 to 7 shows its own section, which identifies the step; two different steps never show the same section; every step past 7 shows none |
| Wizard.ActiveItems | script.js:183-184 | on a form step exactly the current item is active |
| Wizard.CompletedItems | script.js:185-186 | on a form step exactly the items before the current one are completed |
| Wizard.PlainItems | script.js:177-189 | on a form step exactly the items after the current one have neither class |
| Wizard.StepperClasses | script.js:177-189 | on form step `n` one item is active, `n - 1` are completed and `4 - n` are plain |
| Wizard.ApplyKeepsCoherent | script.js:25-770 | every user action (the selection click at 25-38, next, back and start at 86-128, reset at 472-505, the jumps at 507-522, the upload handler at 525-550 and the thank-you page at 763-770) keeps this invariant: whenever the stepper is shown, its items were last classified for the current step |
| Wizard.ApplyAllKeepsCoherent | script.js:25-770 | any sequence of those actions keeps that invariant |
| Wizard.StepperMarksCurrentStep | script.js:131-189 | from a fresh page, whatever the user does, whenever the stepper is shown its active item is the current step and the items before it are completed |

## Left out

- `loadSavedData` and the JSON form of the stored record (`script.js:438-469`): storage keeps the record as a value, and restoring it into the page is not modelled. `JSON.parse` of a corrupt record would throw, and that path is absent.
- Inputs in the stored record: stored values are copied as text or checkbox state. The input type, `select` and `textarea` elements are not distinguished: the save reads only `input` elements, which the model's input list stands for.
- `calculateEMI`, `setupAutoCalculations` and the tenure slider (`script.js:632-699`): floating-point display arithmetic. The slider's write of `formData.tenure` is also not modelled.
- Timers: the upload delay and the thank-you delay are modelled as instantaneous transitions. The verification button, the download and the possibility of a late callback acting on a page the user has left are not modelled.
- Rendering: error messages and their text, field error styling, the loading overlay, upload box styling and `form.reset()` of the page's controls. Failures are values (`StepChecks.Failure`) instead of messages.
- The existing-customer dropdown handler, the keyboard handler (which presses the next button), the date display and the demo filler. The page's field values are an input to every transition. The dropdown and the date display only change that input; the demo filler also saves the record, which the model reaches through the `Edit` action, and the keyboard handler presses the next button, which is the `Next` action.
- `restartApplication`'s confirmation dialog: the `Restart` action is a confirmed reset.
- Selection-group labels: `saveSelectionData` keys each selection by its group's label, lower-cased with runs of whitespace turned into `_`. The model's selection map is already keyed by that normalised label.
- The classes the stepper items carry in the page's markup before the first classification: `stepperAt` is None until then.
- Numbers: `parseFloat` keeps the exact decimal value instead of the nearest double. Only the sign comparisons `< 0` and `<= 0` are decided on it, and underflow to zero and overflow to Infinity are modelled at their exact limits.
- Strings are sequences of Unicode scalar values, not UTF-16 code units. No pattern or check here depends on the difference.
- The file picker's `accept` list and the cancelled file dialog are not modelled. A cancelled dialog records nothing.
- Stepper items: the page is taken to carry exactly four stepper items, with `data-step` 1 to 4. The page markup is not modelled, so the item classes are stated for those four.

=== FILE: chars.dfy ===
/**
  Character classes and whitespace handling shared by the validators and the
  step checks: ASCII digits and capitals, the JavaScript whitespace set (what
  `\s` matches and what `String.prototype.trim` removes), trimming, and the
  global whitespace removal `s.replace(/\s/g, '')`.
 */
module Chars {

  /** `\d` and `[0-9]`: ASCII digits only. */
  predicate IsDigit(c: char) {
    '0' <= c <= '9'
  }

  /** `[A-Z]`: ASCII capital letters only. */
  predicate IsUpper(c: char) {
    'A' <= c <= 'Z'
  }

  /**
    The WhiteSpace and LineTerminator code points of ECMA-262: tab, line feed,
    vertical tab, form feed, carriage return, space, no-break space, the
    byte-order mark, the Unicode space separators (category Zs) and the line
    and paragraph separators. `\s` matches exactly these, and `trim` removes
    exactly these from both ends.
   */
  predicate IsWhitespace(c: char) {
    || c == '\t' || c == '\n' || c == '\U{000B}' || c == '\U{000C}' || c == '\r'
    || c == ' ' || c == '\U{00A0}' || c == '\U{1680}'
    || ('\U{2000}' <= c <= '\U{200A}')
    || c == '\U{2028}' || c == '\U{2029}' || c == '\U{202F}' || c == '\U{205F}'
    || c == '\U{3000}' || c == '\U{FEFF}'
  }

  predicate AllDigits(s: string) {
    forall i | 0 <= i < |s| :: IsDigit(s[i])
  }

  predicate AllUpper(s: string) {
    forall i | 0 <= i < |s| :: IsUpper(s[i])
  }

  predicate NoWhitespace(s: string) {
    forall i | 0 <= i < |s| :: !IsWhitespace(s[i])
  }

  predicate AllWhitespace(s: string) {
    forall i | 0 <= i < |s| :: IsWhitespace(s[i])
  }

  /** Length of the longest whitespace prefix of `s`. */
  function LeadingSpace(s: string): (n: nat)
    ensures n <= |s|
    ensures AllWhitespace(s[..n])
    ensures n < |s| ==> !IsWhitespace(s[n])
    decreases |s|
  {
    if |s| > 0 && IsWhitespace(s[0]) then
      var k := LeadingSpace(s[1..]);
      assert s[1..][..k] == s[1..k + 1];
      1 + k
    else 0
  }

  /** Length of the longest whitespace suffix of `s`. */
  function TrailingSpace(s: string): (n: nat)
    ensures n <= |s|
    ensures AllWhitespace(s[|s| - n..])
    ensures n < |s| ==> !IsWhitespace(s[|s| - n - 1])
    decreases |s|
  {
    if |s| > 0 && IsWhitespace(s[|s| - 1]) then
      var k := TrailingSpace(s[..|s| - 1]);
      assert s[..|s| - 1][|s| - 1 - k..] == s[|s| - 1 - k..|s| - 1];
      1 + k
    else 0
  }

  /** `s.trimStart()`: drops the leading whitespace. */
  function TrimStart(s: string): (r: string)
    ensures |r| <= |s|
  {
    s[LeadingSpace(s)..]
  }

  /** `s.trim()`: drops whitespace at both ends. */
  function Trim(s: string): (r: string)
    ensures |r| <= |s|
  {
    var i := LeadingSpace(s);
    var k := TrailingSpace(s[i..]);
    s[i..|s| - k]
  }

  /**
    What `trimStart` removes is whitespace, what it keeps is the rest of the
    string, and what it keeps does not start with whitespace.
   */
  lemma TrimStartSpec(s: string)
    ensures exists i | 0 <= i <= |s| :: TrimStart(s) == s[i..] && AllWhitespace(s[..i])
    ensures TrimStart(s) == [] || !IsWhitespace(TrimStart(s)[0])
  {
    var i := LeadingSpace(s);
    assert TrimStart(s) == s[i..];
  }

  /**
    What `trim` removes is whitespace at either end, what it keeps is one
    contiguous slice, and that slice neither starts nor ends with whitespace.
   */
  lemma TrimSpec(s: string)
    ensures exists i, j | 0 <= i <= j <= |s| ::
      Trim(s) == s[i..j] && AllWhitespace(s[..i]) && AllWhitespace(s[j..])
    ensures var r := Trim(s); r == [] || (!IsWhitespace(r[0]) && !IsWhitespace(r[|r| - 1]))
  {
    var i := LeadingSpace(s);
    var t := s[i..];
    var k := TrailingSpace(t);
    assert t[|t| - k..] == s[|s| - k..];
    assert Trim(s) == s[i..|s| - k];
  }

  /** `s.replace(/\s/g, '')`: every whitespace character removed. */
  function StripWhitespace(s: string): (r: string)
    ensures NoWhitespace(r)
    ensures |r| <= |s|
    decreases |s|
  {
    if s == [] then []
    else if IsWhitespace(s[0]) then StripWhitespace(s[1..])
    else [s[0]] + StripWhitespace(s[1..])
  }

  /** Trimming leaves nothing exactly when the string is all whitespace. */
  lemma TrimEmptyIff(s: string)
    ensures Trim(s) == [] <==> AllWhitespace(s)
  {
    var i := LeadingSpace(s);
    if Trim(s) == [] || AllWhitespace(s) {
      // a non-whitespace character at `i` would survive trimming
      assert i == |s|;
      assert s[..i] == s;
    }
  }

  /** Whitespace removal distributes over concatenation. */
  lemma {:induction false} StripConcat(a: string, b: string)
    ensures StripWhitespace(a + b) == StripWhitespace(a) + StripWhitespace(b)
    decreases |a|
  {
    if a == [] {
      assert a + b == b;
    } else {
      assert (a + b)[0] == a[0];
      assert (a + b)[1..] == a[1..] + b;
      StripConcat(a[1..], b);
    }
  }

  /** Stripping a string without whitespace leaves it as it is. */
  lemma {:induction false} StripKeepsSpaceless(s: string)
    requires NoWhitespace(s)
    ensures StripWhitespace(s) == s
    decreases |s|
  {
    if s != [] {
      StripKeepsSpaceless(s[1..]);
    }
  }

  /** Inserting a whitespace character anywhere does not change what remains after stripping. */
  lemma {:induction false} StripIgnoresInsertedSpace(s: string, i: nat, w: char)
    requires i <= |s|
    requires IsWhitespace(w)
    ensures StripWhitespace(s[..i] + [w] + s[i..]) == StripWhitespace(s)
  {
    var a, b := s[..i], s[i..];
    assert StripWhitespace([w]) == [];
    StripConcat(a, [w]);
    assert StripWhitespace(a + [w]) == StripWhitespace(a);
    StripConcat(a + [w], b);
    StripConcat(a, b);
    assert a + b == s;
  }
}

=== FILE: formdata.dfy ===
/**
  The in-memory form record (`formData`): a bag of values keyed by field id,
  its defaults, and how a save copies the page's `input` elements into it.
 */
module FormStore {
  import opened JsNumber

  /** A value held under one key: an input's text, a checkbox state, a parsed number, or the selections by group. */
  datatype Value =
    | Text(text: string)
    | Checked(on: bool)
    | Num(n: Number)
    | Choices(byGroup: map<string, string>)

  type FormData = map<string, Value>

  const LoanAmountKey := "loanAmount"
  const InterestRateKey := "interestRate"
  const TenureKey := "tenure"
  const SelectionsKey := "selections"

  /** The record the page starts with and returns to on reset: ten lakhs at 8.5 % over 84 months. */
  const Defaults: FormData := map[
    LoanAmountKey := Num(Finite(1000000.0)),
    InterestRateKey := Num(Finite(8.5)),
    TenureKey := Num(Finite(84.0))]

  /** The part of an `input` element a save reads. */
  datatype Control = Checkbox(checked: bool) | Field(value: string)

  datatype Input = Input(id: string, control: Control)

  /** Checkboxes contribute their `checked` state, every other input its text. */
  function ValueOf(c: Control): Value {
    match c
    case Checkbox(on) => Checked(on)
    case Field(v) => Text(v)
  }

  predicate Mentions(inputs: seq<Input>, key: string) {
    exists j | 0 <= j < |inputs| :: inputs[j].id == key
  }

  /** No later input has the same id as `inputs[j]`. */
  predicate LastWithId(inputs: seq<Input>, j: int)
    requires 0 <= j < |inputs|
  {
    forall j' | j < j' < |inputs| :: inputs[j'].id != inputs[j].id
  }

  /** The save loop over every `input` element in document order. */
  function SaveInputs(form: FormData, inputs: seq<Input>): FormData
    decreases |inputs|
  {
    if inputs == [] then form
    else
      var last := inputs[|inputs| - 1];
      SaveInputs(form, inputs[..|inputs| - 1])[last.id := ValueOf(last.control)]
  }

  /**
    After a save, a key is present exactly when it was before or some input
    has it as id; it holds the value of the last input with that id; and a key
    no input has keeps its value.
   */
  lemma {:induction false} SaveInputsAt(form: FormData, inputs: seq<Input>, key: string)
    ensures key in SaveInputs(form, inputs) <==> key in form || Mentions(inputs, key)
    ensures key in form && !Mentions(inputs, key) ==> SaveInputs(form, inputs)[key] == form[key]
    ensures forall j | 0 <= j < |inputs| && inputs[j].id == key && LastWithId(inputs, j) ::
      key in SaveInputs(form, inputs) && SaveInputs(form, inputs)[key] == ValueOf(inputs[j].control)
    decreases |inputs|
  {
    if inputs != [] {
      var init := inputs[..|inputs| - 1];
      var last := inputs[|inputs| - 1];
      SaveInputsAt(form, init, key);
      assert Mentions(inputs, key) <==> Mentions(init, key) || key == last.id by {
        if Mentions(init, key) {
          var j :| 0 <= j < |init| && init[j].id == key;
          assert inputs[j].id == key;
        }
      }
      forall j | 0 <= j < |inputs| && inputs[j].id == key && LastWithId(inputs, j)
        ensures key in SaveInputs(form, inputs) && SaveInputs(form, inputs)[key] == ValueOf(inputs[j].control)
      {
        if j < |init| {
          assert init[j] == inputs[j];
          assert LastWithId(init, j);
        }
      }
    }
  }

  /** The selections snapshot replaces whatever was stored under `selections`. */
  function SaveSelections(form: FormData, byGroup: map<string, string>): (r: FormData)
    ensures r.Keys == form.Keys + {SelectionsKey}
    ensures r[SelectionsKey] == Choices(byGroup)
    ensures forall key | key in form && key != SelectionsKey :: r[key] == form[key]
  {
    form[SelectionsKey := Choices(byGroup)]
  }
}

=== FILE: numbers.dfy ===
/**
  JavaScript's `parseFloat` and the two comparisons the step checks make with
  its result (`< 0` and `<= 0`).

  A parsed number keeps the exact decimal value instead of the nearest double.
  Every comparison in the wizard is against zero, and rounding a real to the
  nearest double never changes its sign except at the two ends of the range,
  so those ends are modelled explicitly: magnitudes up to 2^-1075 round to zero
  and magnitudes from 2^1024 - 2^970 round to Infinity (round half to even).
 */
module JsNumber {
  import opened Chars
  import opened Options

  datatype Number = NaN | Finite(value: real) | Infinity(negative: bool)

  /** JavaScript `n < 0`: false for NaN. */
  predicate Negative(n: Number) {
    match n
    case NaN => false
    case Finite(v) => v < 0.0
    case Infinity(neg) => neg
  }

  /** JavaScript `n <= 0`: false for NaN. */
  predicate NonPositive(n: Number) {
    match n
    case NaN => false
    case Finite(v) => v <= 0.0
    case Infinity(neg) => neg
  }

  function Pow10(n: nat): (r: nat)
    ensures r >= 1
  {
    if n == 0 then 1 else 10 * Pow10(n - 1)
  }

  /** 2^1075, written out. */
  const TwoTo1075: nat := 0x80000000000000000000000000000000000000000000000000000000000000000000000000000000000000000000000000000000000000000000000000000000000000000000000000000000000000000000000000000000000000000000000000000000000000000000000000000000000000000000000000000000000000000000000000000

  /** 2^1024 - 2^970, that is (2^54 - 1) * 2^970, written out. */
  const OverflowMagnitude: nat := 0xFFFFFFFFFFFFFC00000000000000000000000000000000000000000000000000000000000000000000000000000000000000000000000000000000000000000000000000000000000000000000000000000000000000000000000000000000000000000000000000000000000000000000000000000000000000000000000000

  /** Largest magnitude that rounds to zero: half the smallest subnormal double, 2^-1075. */
  function UnderflowLimit(): (r: real)
    ensures 0.0 < r < 1.0
  {
    1.0 / (TwoTo1075 as real)
  }

  /** Smallest magnitude that rounds to Infinity: halfway between the largest double and 2^1024. */
  function OverflowLimit(): (r: real)
    ensures r > 1.0
  {
    OverflowMagnitude as real
  }

  function Abs(v: real): real {
    if v < 0.0 then -v else v
  }

  /** The double nearest to `v`, as far as its comparisons with zero can tell. */
  function Rounded(v: real): (n: Number)
    ensures n != NaN
    ensures Negative(n) ==> v < 0.0
    ensures v < 0.0 && Abs(v) > UnderflowLimit() ==> Negative(n)
    ensures NonPositive(n) <==> v <= UnderflowLimit()
  {
    if Abs(v) <= UnderflowLimit() then Finite(0.0)
    else if Abs(v) >= OverflowLimit() then Infinity(v < 0.0)
    else Finite(v)
  }

  function DigitValue(c: char): nat
    requires IsDigit(c)
  {
    c as int - '0' as int
  }

  /** The value of a string of decimal digits. */
  function DigitsValue(ds: string): nat
    requires AllDigits(ds)
    decreases |ds|
  {
    if ds == [] then 0
    else 10 * DigitsValue(ds[..|ds| - 1]) + DigitValue(ds[|ds| - 1])
  }

  /** Length of the longest prefix of `s` made of decimal digits. */
  function LeadingDigits(s: string): (n: nat)
    ensures n <= |s|
    ensures AllDigits(s[..n])
    ensures n < |s| ==> !IsDigit(s[n])
    decreases |s|
  {
    if |s| > 0 && IsDigit(s[0]) then
      var k := LeadingDigits(s[1..]);
      assert s[1..][..k] == s[1..k + 1];
      1 + k
    else 0
  }

  /** The value `mantissa * 10^scale` of a decimal literal. */
  datatype Decimal = Decimal(mantissa: nat, scale: int)

  function DecimalValue(d: Decimal): real {
    if d.scale >= 0 then (d.mantissa * Pow10(d.scale)) as real
    else d.mantissa as real / Pow10(-d.scale) as real
  }

  /**
    The exponent of an ExponentPart (`e` or `E`, an optional sign, at least one
    digit) at the start of `t`, and 0 when `t` does not start with one: the
    longest-prefix rule then stops before the `e`.
   */
  function ScanExponent(t: string): int {
    if |t| >= 1 && (t[0] == 'e' || t[0] == 'E') then
      var negative := |t| >= 2 && t[1] == '-';
      var u := if |t| >= 2 && (t[1] == '+' || t[1] == '-') then t[2..] else t[1..];
      var k := LeadingDigits(u);
      var e: int := DigitsValue(u[..k]);
      if negative then -e else e
    else 0
  }

  /**
    The longest prefix of `b` that is an unsigned decimal literal: digits, an
    optional dot with more digits, at least one digit in all, then an optional
    exponent. None when no prefix is one.
   */
  function ScanDecimal(b: string): Option<Decimal> {
    var i := LeadingDigits(b);
    var hasDot := i < |b| && b[i] == '.';
    var f := if hasDot then LeadingDigits(b[i + 1..]) else 0;
    if i + f == 0 then None
    else
      var frac := if hasDot then b[i + 1..][..f] else [];
      var digits := b[..i] + frac;
      assert AllDigits(digits) by {
        forall j | 0 <= j < |digits|
          ensures IsDigit(digits[j])
        {
          if j < i {
            assert digits[j] == b[..i][j];
          } else {
            assert digits[j] == frac[j - i];
          }
        }
      }
      var mantissaEnd := if hasDot then i + 1 + f else i;
      Some(Decimal(DigitsValue(digits), ScanExponent(b[mantissaEnd..]) - f))
  }

  predicate StartsWith(s: string, prefix: string) {
    |prefix| <= |s| && s[..|prefix|] == prefix
  }

  /** The text after leading whitespace and one optional sign, and whether the sign was `-`. */
  function Unsigned(s: string): (bool, string) {
    var t := TrimStart(s);
    if |t| > 0 && (t[0] == '+' || t[0] == '-') then (t[0] == '-', t[1..]) else (false, t)
  }

  /**
    `parseFloat(s)`: skip leading whitespace, then read the longest prefix that
    is a signed decimal literal or a signed `Infinity`; NaN when there is none.
   */
  function ParseFloat(s: string): Number {
    var (negative, b) := Unsigned(s);
    if StartsWith(b, "Infinity") then Infinity(negative)
    else
      match ScanDecimal(b)
      case None => NaN
      case Some(d) =>
        var v := DecimalValue(d);
        Rounded(if negative then -v else v)
  }

  // ---------------------------------------------------------------------------
  // When parseFloat gives NaN

  /** After whitespace and sign, the text starts a number: `Infinity`, a digit, or a dot and a digit. */
  predicate StartsNumber(b: string) {
    || StartsWith(b, "Infinity")
    || (|b| > 0 && IsDigit(b[0]))
    || (|b| > 1 && b[0] == '.' && IsDigit(b[1]))
  }

  lemma ScanDecimalNoneIff(b: string)
    ensures ScanDecimal(b) == None <==> !((|b| > 0 && IsDigit(b[0])) || (|b| > 1 && b[0] == '.' && IsDigit(b[1])))
  {
    var i := LeadingDigits(b);
    if i == 0 && |b| > 1 && b[0] == '.' {
      var f := LeadingDigits(b[1..]);
      assert b[1..][0] == b[1];
    }
  }

  /** parseFloat returns NaN exactly when no number starts after the whitespace and the sign. */
  lemma ParseFloatNaNIff(s: string)
    ensures ParseFloat(s) == NaN <==> !StartsNumber(Unsigned(s).1)
  {
    var b := Unsigned(s).1;
    ScanDecimalNoneIff(b);
  }

  /** Text that starts with a letter other than `I`, or is empty, or is blank, parses to NaN. */
  lemma WordsAreNaN(s: string)
    requires TrimStart(s) == [] || (TrimStart(s)[0] != 'I' && !IsDigit(TrimStart(s)[0])
      && TrimStart(s)[0] != '.' && TrimStart(s)[0] != '+' && TrimStart(s)[0] != '-')
    ensures ParseFloat(s) == NaN
  {
    ParseFloatNaNIff(s);
  }

  // ---------------------------------------------------------------------------
  // Plain digit strings

  predicate AllZeros(ds: string) {
    forall i | 0 <= i < |ds| :: ds[i] == '0'
  }

  lemma {:induction false} DigitsValueZeroIff(ds: string)
    requires AllDigits(ds)
    ensures DigitsValue(ds) == 0 <==> AllZeros(ds)
    decreases |ds|
  {
    if ds != [] {
      var init := ds[..|ds| - 1];
      DigitsValueZeroIff(init);
      assert AllZeros(ds) <==> AllZeros(init) && ds[|ds| - 1] == '0' by {
        if AllZeros(init) && ds[|ds| - 1] == '0' {
          forall i | 0 <= i < |ds|
            ensures ds[i] == '0'
          {
            if i < |ds| - 1 {
              assert ds[i] == init[i];
            }
          }
        }
      }
    }
  }

  lemma DigitsUnsigned(ds: string)
    requires |ds| > 0 && AllDigits(ds)
    ensures Unsigned(ds) == (false, ds)
    ensures !StartsWith(ds, "Infinity")
  {
    assert IsDigit(ds[0]);
    assert LeadingSpace(ds) == 0;
  }

  lemma DigitsScan(ds: string)
    requires |ds| > 0 && AllDigits(ds)
    ensures ScanDecimal(ds) == Some(Decimal(DigitsValue(ds), 0))
  {
    var i := LeadingDigits(ds);
    assert i == |ds|;
    assert ds[..i] + [] == ds;
    assert ScanExponent(ds[i..]) == 0;
  }

  /** A non-empty string of digits is read in full, as a whole number. */
  lemma PlainDigitsParse(ds: string)
    requires |ds| > 0 && AllDigits(ds)
    ensures ParseFloat(ds) == Rounded(DigitsValue(ds) as real)
  {
    DigitsUnsigned(ds);
    DigitsScan(ds);
    assert DecimalValue(Decimal(DigitsValue(ds), 0)) == DigitsValue(ds) as real;
  }

  /**
    A non-empty string of digits parses to a number that is never negative,
    and that is `<= 0` exactly when every digit is zero.
   */
  lemma DigitStringSign(ds: string)
    requires |ds| > 0 && AllDigits(ds)
    ensures ParseFloat(ds) != NaN
    ensures !Negative(ParseFloat(ds))
    ensures NonPositive(ParseFloat(ds)) <==> AllZeros(ds)
  {
    PlainDigitsParse(ds);
    DigitsValueZeroIff(ds);
  }
}

=== FILE: option.dfy ===
/** An optional value, shared by the number parser and the wizard state. */
module Options {
  datatype Option<T> = None | Some(value: T)
}

=== FILE: regex.dfy ===
/**
  The fragment of JavaScript regular expressions the validators use: a
  pattern anchored at both ends (`^...$`, no multiline flag) that is a
  concatenation of single-character classes, each repeated a fixed number of
  times (`{n}`, or once when written alone) or at least a number of times
  (`+`). `RegExp.prototype.test` on such a pattern accepts a string exactly
  when the string splits into consecutive runs, one per piece; backtracking
  over the run lengths is the existential below.
 */
module Regex {
  import opened Chars

  datatype CharClass =
    | Range(lo: char, hi: char)     // `[lo-hi]`, and `\d` as `[0-9]`
    | Literal(c: char)              // a single character such as `@` or `\.`
    | NonSpaceExcept(x: char)       // `[^\sx]`

  predicate InClass(c: char, k: CharClass) {
    match k
    case Range(lo, hi) => lo <= c <= hi
    case Literal(l) => c == l
    case NonSpaceExcept(x) => !IsWhitespace(c) && c != x
  }

  datatype Repeat =
    | Exactly(n: nat)               // `{n}`; a bare class is `{1}`
    | AtLeast(n: nat)               // `+` is `AtLeast(1)`

  predicate Allows(rep: Repeat, k: nat) {
    match rep
    case Exactly(n) => k == n
    case AtLeast(n) => k >= n
  }

  datatype Piece = Piece(cls: CharClass, rep: Repeat)

  predicate AllIn(s: string, k: CharClass) {
    forall i | 0 <= i < |s| :: InClass(s[i], k)
  }

  /** `/^p$/.test(s)` */
  predicate FullMatch(p: seq<Piece>, s: string)
    decreases |p|
  {
    if p == [] then s == []
    else exists k :: 0 <= k <= |s| && Allows(p[0].rep, k) && AllIn(s[..k], p[0].cls) && FullMatch(p[1..], s[k..])
  }

  /** Names the length of the run the first piece consumes in a match. */
  lemma HeadRun(p: seq<Piece>, s: string) returns (k: nat)
    requires |p| > 0 && FullMatch(p, s)
    ensures k <= |s| && Allows(p[0].rep, k) && AllIn(s[..k], p[0].cls) && FullMatch(p[1..], s[k..])
  {
    k :| 0 <= k <= |s| && Allows(p[0].rep, k) && AllIn(s[..k], p[0].cls) && FullMatch(p[1..], s[k..]);
  }

  /** A run for the first piece followed by a match of the remaining pieces is a match. */
  lemma HeadRunMatches(p: seq<Piece>, s: string, k: nat)
    requires |p| > 0 && k <= |s|
    requires Allows(p[0].rep, k) && AllIn(s[..k], p[0].cls) && FullMatch(p[1..], s[k..])
    ensures FullMatch(p, s)
  {
  }

  /** A piece repeated exactly `n` times consumes exactly the next `n` characters. */
  lemma FixedHead(p: seq<Piece>, s: string)
    requires |p| > 0 && p[0].rep.Exactly?
    ensures FullMatch(p, s) <==>
      var n := p[0].rep.n;
      n <= |s| && AllIn(s[..n], p[0].cls) && FullMatch(p[1..], s[n..])
  {
  }

  /** A single repeated piece matches a string exactly when the length is allowed and every character is in the class. */
  lemma SinglePiece(pc: Piece, s: string)
    ensures FullMatch([pc], s) <==> Allows(pc.rep, |s|) && AllIn(s, pc.cls)
  {
    assert [pc][1..] == [];
    if FullMatch([pc], s) {
      var k :| 0 <= k <= |s| && Allows(pc.rep, k) && AllIn(s[..k], pc.cls) && FullMatch([pc][1..], s[k..]);
      assert s[..k] == s;
    }
    if Allows(pc.rep, |s|) && AllIn(s, pc.cls) {
      assert s[..|s|] == s;
      assert FullMatch([pc][1..], s[|s|..]);
    }
  }
}

=== FILE: stepexamples.dfy ===
/**
  Concrete inputs run through the step checks: what a blank first step shows.
 */
module StepExamples {
  import opened StepChecks

  /** Empty text fields fail their rules; the consent rule fails when the box is unticked. */
  lemma EmptyBasicFieldsFail(f: Fields)
    requires f.fullName == "" && f.mobile == "" && f.loanAmount == "" && f.panNumber == ""
    requires !f.agreeOVD
    ensures BasicDetailsRules(f) == Rules([true, true, true, true, true], BasicDetailsFailures)
  {
  }

  /**
    With name, mobile number, loan amount and PAN empty and the OVD box
    unticked, all five errors are shown, in the order of the form.
   */
  lemma BasicDetailsAllEmpty(f: Fields)
    requires f.fullName == "" && f.mobile == "" && f.loanAmount == "" && f.panNumber == ""
    requires !f.agreeOVD
    ensures Run(BasicDetailsRules(f)) == Verdict(false,
      [FieldError(FullName), FieldError(Mobile), FieldError(LoanAmount), FieldError(PanNumber), OvdNotAgreed])
  {
    EmptyBasicFieldsFail(f);
    BasicDetailsAllFail();
  }
}

=== FILE: steps.dfy ===
/**
  The per-step checks run before the wizard moves forward. Each check is a
  fixed list of rules evaluated in order; every failing rule shows its error
  and clears the result flag, and no rule is skipped because an earlier one
  failed.
 */
module StepChecks {
  import opened Chars
  import opened Validators
  import opened JsNumber
  import opened FormStore
  import opened Uploads

  datatype FieldId =
    | FullName | Mobile | LoanAmount | PanNumber
    | Address | Dob | FatherName | AadharNumber | Email | Gender
    | ExistingCustomer | CifNumber | ResidenceType | YearsAtResidence
    | EmployerName | GrossMonthlyIncome | TotalMonthlyObligation | YearsAtEmployer | OfficialEmailID

  /** An error shown under one field, or a message shown at the top of the step. */
  datatype Failure =
    | FieldError(field: FieldId)
    | OvdNotAgreed
    | NothingSelected
    | DocumentsMissing(remaining: int)

  /** The raw `.value` of each form control, and `.checked` of the OVD consent box. */
  datatype Fields = Fields(
    fullName: string, mobile: string, loanAmount: string, panNumber: string, agreeOVD: bool,
    address: string, dob: string, fatherName: string, aadharNumber: string, email: string,
    gender: string, existingCustomer: string, cifNumber: string, residenceType: string,
    yearsAtResidence: string,
    employerName: string, grossMonthlyIncome: string, totalMonthlyObligation: string,
    yearsAtEmployer: string, officialEmailID: string)

  /** One `if (...) { show error; isValid = false; }` of a check. */
  datatype Rule = Rule(fails: bool, failure: Failure)

  /** The flag a check returns and the errors it showed, in order. */
  datatype Verdict = Verdict(ok: bool, failures: seq<Failure>)

  /** The first `n` rules, in order: `isValid` starts true and each failing rule shows its error and sets it false. */
  function RunPrefix(rules: seq<Rule>, n: nat): Verdict
    requires n <= |rules|
    decreases n
  {
    if n == 0 then Verdict(true, [])
    else
      var before := RunPrefix(rules, n - 1);
      var rule := rules[n - 1];
      if rule.fails then Verdict(false, before.failures + [rule.failure]) else before
  }

  /** A whole check: every rule runs, whatever the earlier ones found. */
  function Run(rules: seq<Rule>): Verdict {
    RunPrefix(rules, |rules|)
  }

  predicate SomeRuleFailsWith(rules: seq<Rule>, n: nat, x: Failure) {
    exists i | 0 <= i < n && i < |rules| :: rules[i].fails && rules[i].failure == x
  }

  lemma {:induction false} RunPrefixReports(rules: seq<Rule>, n: nat)
    requires n <= |rules|
    ensures RunPrefix(rules, n).ok <==> forall i | 0 <= i < n :: !rules[i].fails
    ensures forall x :: x in RunPrefix(rules, n).failures <==> SomeRuleFailsWith(rules, n, x)
    ensures RunPrefix(rules, n).ok <==> RunPrefix(rules, n).failures == []
    ensures |RunPrefix(rules, n).failures| <= n
    decreases n
  {
    if n > 0 {
      RunPrefixReports(rules, n - 1);
      forall x
        ensures SomeRuleFailsWith(rules, n, x) <==> SomeRuleFailsWith(rules, n - 1, x) || (rules[n - 1].fails && rules[n - 1].failure == x)
      {
      }
    }
  }

  /**
    A check passes exactly when no rule fails, it shows exactly the errors of
    the failing rules, and it passes exactly when it shows no error.
   */
  lemma RunReportsEveryFailure(rules: seq<Rule>)
    ensures Run(rules).ok <==> forall i | 0 <= i < |rules| :: !rules[i].fails
    ensures forall x :: x in Run(rules).failures <==> SomeRuleFailsWith(rules, |rules|, x)
    ensures Run(rules).ok <==> Run(rules).failures == []
    ensures |Run(rules).failures| <= |rules|
  {
    RunPrefixReports(rules, |rules|);
  }

  /** A prefix's verdict depends only on the rules in that prefix. */
  lemma {:induction false} RunPrefixAgree(xs: seq<Rule>, ys: seq<Rule>, n: nat)
    requires n <= |xs| && n <= |ys|
    requires forall i | 0 <= i < n :: xs[i] == ys[i]
    ensures RunPrefix(xs, n) == RunPrefix(ys, n)
    decreases n
  {
    if n > 0 {
      RunPrefixAgree(xs, ys, n - 1);
    }
  }

  /** The errors one rule shows. */
  function Shown(r: Rule): seq<Failure> {
    if r.fails then [r.failure] else []
  }

  lemma RunSnoc(rules: seq<Rule>, r: Rule)
    ensures Run(rules + [r]) == Verdict(Run(rules).ok && !r.fails, Run(rules).failures + Shown(r))
  {
    RunPrefixAgree(rules + [r], rules, |rules|);
  }

  /** Running two lists of rules one after the other is running their concatenation. */
  lemma {:induction false} RunAppend(xs: seq<Rule>, ys: seq<Rule>)
    ensures Run(xs + ys) == Verdict(Run(xs).ok && Run(ys).ok, Run(xs).failures + Run(ys).failures)
    decreases |ys|
  {
    if ys == [] {
      assert xs + ys == xs;
    } else {
      var init := ys[..|ys| - 1];
      var last := ys[|ys| - 1];
      RunAppend(xs, init);
      assert init + [last] == ys;
      RunSnoc(init, last);
      assert (xs + init) + [last] == xs + ys;
      RunSnoc(xs + init, last);
    }
  }

  // ---------------------------------------------------------------------------
  // The rules of each step

  /** `!x || parseFloat(x) <= 0`: NaN compares false, so non-numeric text is not rejected. */
  predicate RejectsNonPositive(x: string) {
    x == "" || NonPositive(ParseFloat(x))
  }

  /** `!x || parseFloat(x) < 0`: NaN compares false, so non-numeric text is not rejected. */
  predicate RejectsNegative(x: string) {
    x == "" || Negative(ParseFloat(x))
  }

  /** Step 0: some selection button is active. */
  function LoanSelectionRules(selected: map<string, string>): seq<Rule> {
    [Rule(|selected| == 0, NothingSelected)]
  }

  /** Pairs each rule's condition with its failure. */
  function Rules(fails: seq<bool>, failures: seq<Failure>): (r: seq<Rule>)
    requires |fails| == |failures|
    ensures |r| == |fails|
    ensures forall i | 0 <= i < |r| :: r[i] == Rule(fails[i], failures[i])
  {
    seq(|fails|, i requires 0 <= i < |fails| => Rule(fails[i], failures[i]))
  }

  predicate Distinct(xs: seq<Failure>) {
    forall i, j | 0 <= i < j < |xs| :: xs[i] != xs[j]
  }

  /** When no two rules share a failure, each failure is shown exactly when its own condition holds. */
  lemma RulesReport(fails: seq<bool>, failures: seq<Failure>)
    requires |fails| == |failures| && Distinct(failures)
    ensures var v := Run(Rules(fails, failures));
      && (forall i | 0 <= i < |fails| :: failures[i] in v.failures <==> fails[i])
      && |v.failures| <= |fails|
      && (v.ok <==> v.failures == [])
  {
    var rules := Rules(fails, failures);
    RunReportsEveryFailure(rules);
    forall i | 0 <= i < |fails| && failures[i] in Run(rules).failures
      ensures fails[i]
    {
      var j :| 0 <= j < |rules| && rules[j].fails && rules[j].failure == failures[i];
      assert j == i;
    }
  }

  /** When every rule fails, every error is shown, in the order of the rules. */
  lemma {:induction false} RulesAllFail(fails: seq<bool>, failures: seq<Failure>, n: nat)
    requires |fails| == |failures| && n <= |fails|
    requires forall i | 0 <= i < n :: fails[i]
    ensures RunPrefix(Rules(fails, failures), n) == Verdict(n == 0, failures[..n])
    decreases n
  {
    if n > 0 {
      RulesAllFail(fails, failures, n - 1);
      assert failures[..n - 1] + [failures[n - 1]] == failures[..n];
    }
  }

  const BasicDetailsFailures := [FieldError(FullName), FieldError(Mobile), FieldError(LoanAmount), FieldError(PanNumber), OvdNotAgreed]

  /** Step 1: name, mobile number, loan amount and PAN are trimmed first; the OVD box must be ticked. */
  function BasicDetailsFails(f: Fields): seq<bool> {
    var fullName := Trim(f.fullName);
    var mobile := Trim(f.mobile);
    var loanAmount := Trim(f.loanAmount);
    var panNumber := Trim(f.panNumber);
    [ fullName == "",
      mobile == "" || !ValidMobile(mobile),
      RejectsNonPositive(loanAmount),
      panNumber == "" || !ValidPan(panNumber),
      !f.agreeOVD ]
  }

  function BasicDetailsRules(f: Fields): seq<Rule> {
    Rules(BasicDetailsFails(f), BasicDetailsFailures)
  }

  const PersonalDetailsFailures := [
    FieldError(Address), FieldError(Dob), FieldError(FatherName), FieldError(AadharNumber), FieldError(Email),
    FieldError(Gender), FieldError(ExistingCustomer), FieldError(CifNumber), FieldError(ResidenceType),
    FieldError(YearsAtResidence)]

  /** Step 2: date of birth, the three selects and years at residence are read untrimmed. */
  function PersonalDetailsFails(f: Fields): seq<bool> {
    var address := Trim(f.address);
    var fatherName := Trim(f.fatherName);
    var aadharNumber := Trim(f.aadharNumber);
    var email := Trim(f.email);
    var cifNumber := Trim(f.cifNumber);
    [ address == "",
      f.dob == "",
      fatherName == "",
      aadharNumber == "" || !ValidAadhar(aadharNumber),
      email == "" || !ValidEmail(email),
      f.gender == "",
      f.existingCustomer == "",
      f.existingCustomer == "yes" && cifNumber == "",
      f.residenceType == "",
      RejectsNegative(f.yearsAtResidence) ]
  }

  function PersonalDetailsRules(f: Fields): seq<Rule> {
    Rules(PersonalDetailsFails(f), PersonalDetailsFailures)
  }

  const IncomeDetailsFailures := [
    FieldError(EmployerName), FieldError(GrossMonthlyIncome), FieldError(TotalMonthlyObligation),
    FieldError(YearsAtEmployer), FieldError(OfficialEmailID)]

  /** Step 3: the three amounts are read untrimmed. */
  function IncomeDetailsFails(f: Fields): seq<bool> {
    var employerName := Trim(f.employerName);
    var officialEmailID := Trim(f.officialEmailID);
    [ employerName == "",
      RejectsNonPositive(f.grossMonthlyIncome),
      RejectsNegative(f.totalMonthlyObligation),
      RejectsNegative(f.yearsAtEmployer),
      officialEmailID == "" || !ValidEmail(officialEmailID) ]
  }

  function IncomeDetailsRules(f: Fields): seq<Rule> {
    Rules(IncomeDetailsFails(f), IncomeDetailsFailures)
  }

  /** Step 5: at least four documents recorded, whatever their ids. */
  function DocumentUploadRules(t: Tracker): seq<Rule> {
    [Rule(!CountComplete(t), DocumentsMissing(Remaining(t)))]
  }

  /** Step 1's side effect: an accepted loan amount is stored as the parsed number, even when another rule fails. */
  function StoreLoanAmount(f: Fields, form: FormData): (r: FormData)
    ensures RejectsNonPositive(Trim(f.loanAmount)) ==> r == form
    ensures !RejectsNonPositive(Trim(f.loanAmount)) ==>
      r.Keys == form.Keys + {LoanAmountKey} && r[LoanAmountKey] == Num(ParseFloat(Trim(f.loanAmount)))
    ensures forall k | k in form && k != LoanAmountKey :: r[k] == form[k]
  {
    var loanAmount := Trim(f.loanAmount);
    if RejectsNonPositive(loanAmount) then form else form[LoanAmountKey := Num(ParseFloat(loanAmount))]
  }

  /** The result of a step check and the form record after it. */
  datatype Outcome = Outcome(verdict: Verdict, form: FormData)

  /** `validateCurrentStep`: the offer page (4) and every step from 6 on always pass. */
  function ValidateCurrentStep(step: nat, f: Fields, t: Tracker, selected: map<string, string>, form: FormData): Outcome {
    match step
    case 0 => Outcome(Run(LoanSelectionRules(selected)), form)
    case 1 => Outcome(Run(BasicDetailsRules(f)), StoreLoanAmount(f, form))
    case 2 => Outcome(Run(PersonalDetailsRules(f)), form)
    case 3 => Outcome(Run(IncomeDetailsRules(f)), form)
    case 4 => Outcome(Verdict(true, []), form)
    case 5 => Outcome(Run(DocumentUploadRules(t)), form)
    case _ => Outcome(Verdict(true, []), form)
  }

  // ---------------------------------------------------------------------------
  // What each step reports, in terms of the fields

  /** Every error of a step is reported by one rule only. */
  lemma FailuresDistinct()
    ensures Distinct(BasicDetailsFailures)
    ensures Distinct(PersonalDetailsFailures)
    ensures Distinct(IncomeDetailsFailures)
  {
  }

  /** The order of the basic-details errors: each is shown exactly when its own condition holds. */
  lemma BasicDetailsLayout(b: seq<bool>)
    requires |b| == 5
    ensures var v := Run(Rules(b, BasicDetailsFailures));
      && (FieldError(FullName) in v.failures <==> b[0])
      && (FieldError(Mobile) in v.failures <==> b[1])
      && (FieldError(LoanAmount) in v.failures <==> b[2])
      && (FieldError(PanNumber) in v.failures <==> b[3])
      && (OvdNotAgreed in v.failures <==> b[4])
      && |v.failures| <= 5
      && (v.ok <==> v.failures == [])
  {
    FailuresDistinct();
    RulesReport(b, BasicDetailsFailures);
  }

  /** The order of the personal-details errors: each is shown exactly when its own condition holds. */
  lemma PersonalDetailsLayout(b: seq<bool>)
    requires |b| == 10
    ensures var v := Run(Rules(b, PersonalDetailsFailures));
      && (FieldError(Address) in v.failures <==> b[0])
      && (FieldError(Dob) in v.failures <==> b[1])
      && (FieldError(FatherName) in v.failures <==> b[2])
      && (FieldError(AadharNumber) in v.failures <==> b[3])
      && (FieldError(Email) in v.failures <==> b[4])
      && (FieldError(Gender) in v.failures <==> b[5])
      && (FieldError(ExistingCustomer) in v.failures <==> b[6])
      && (FieldError(CifNumber) in v.failures <==> b[7])
      && (FieldError(ResidenceType) in v.failures <==> b[8])
      && (FieldError(YearsAtResidence) in v.failures <==> b[9])
      && |v.failures| <= 10
      && (v.ok <==> v.failures == [])
  {
    FailuresDistinct();
    RulesReport(b, PersonalDetailsFailures);
  }

  /** The order of the income-details errors: each is shown exactly when its own condition holds. */
  lemma IncomeDetailsLayout(b: seq<bool>)
    requires |b| == 5
    ensures var v := Run(Rules(b, IncomeDetailsFailures));
      && (FieldError(EmployerName) in v.failures <==> b[0])
      && (FieldError(GrossMonthlyIncome) in v.failures <==> b[1])
      && (FieldError(TotalMonthlyObligation) in v.failures <==> b[2])
      && (FieldError(YearsAtEmployer) in v.failures <==> b[3])
      && (FieldError(OfficialEmailID) in v.failures <==> b[4])
      && |v.failures| <= 5
      && (v.ok <==> v.failures == [])
  {
    FailuresDistinct();
    RulesReport(b, IncomeDetailsFailures);
  }

  /** The basic-details rules, each shown exactly when its own condition holds. */
  lemma BasicDetailsRaw(f: Fields)
    ensures var v := Run(BasicDetailsRules(f));
      && (FieldError(FullName) in v.failures <==> Trim(f.fullName) == "")
      && (FieldError(Mobile) in v.failures <==> Trim(f.mobile) == "" || !ValidMobile(Trim(f.mobile)))
      && (FieldError(LoanAmount) in v.failures <==> RejectsNonPositive(Trim(f.loanAmount)))
      && (FieldError(PanNumber) in v.failures <==> Trim(f.panNumber) == "" || !ValidPan(Trim(f.panNumber)))
      && (OvdNotAgreed in v.failures <==> !f.agreeOVD)
      && |v.failures| <= 5
      && (v.ok <==> v.failures == [])
  {
    BasicDetailsLayout(BasicDetailsFails(f));
  }

  /**
    Basic details: each error appears exactly when its own field is wrong,
    whatever the other fields hold, and the step passes exactly when none does.
   */
  lemma BasicDetailsReport(f: Fields)
    ensures var v := Run(BasicDetailsRules(f));
      && (FieldError(FullName) in v.failures <==> AllWhitespace(f.fullName))
      && (FieldError(Mobile) in v.failures <==> !MobileShape(Trim(f.mobile)))
      && (FieldError(LoanAmount) in v.failures <==> RejectsNonPositive(Trim(f.loanAmount)))
      && (FieldError(PanNumber) in v.failures <==> !PanShape(Trim(f.panNumber)))
      && (OvdNotAgreed in v.failures <==> !f.agreeOVD)
      && |v.failures| <= 5
      && (v.ok <==> v.failures == [])
  {
    BasicDetailsRaw(f);
    TrimEmptyIff(f.fullName);
    ValidMobileIff(Trim(f.mobile));
    ValidPanIff(Trim(f.panNumber));
  }

  /**
    When every basic-details rule fails, all five errors are shown, in the
    order of the form, and the step fails: no error hides a later one.
   */
  lemma BasicDetailsAllFail()
    ensures Run(Rules([true, true, true, true, true], BasicDetailsFailures)) == Verdict(false,
      [FieldError(FullName), FieldError(Mobile), FieldError(LoanAmount), FieldError(PanNumber), OvdNotAgreed])
  {
    RulesAllFail([true, true, true, true, true], BasicDetailsFailures, 5);
    assert BasicDetailsFailures[..5] == BasicDetailsFailures;
  }

  /** The loan-amount error is shown exactly when the trimmed amount is empty or parses to a number `<= 0`. */
  lemma LoanAmountRule(f: Fields)
    ensures FieldError(LoanAmount) in Run(BasicDetailsRules(f)).failures <==> RejectsNonPositive(Trim(f.loanAmount))
  {
    BasicDetailsLayout(BasicDetailsFails(f));
  }

  /**
    The stored loan amount changes only when the amount rule passes, and then
    becomes the parsed number; every other key of the form is untouched.
   */
  lemma LoanAmountStoredOnlyWhenAccepted(f: Fields, t: Tracker, selected: map<string, string>, form: FormData)
    ensures var out := ValidateCurrentStep(1, f, t, selected, form);
      && (FieldError(LoanAmount) in out.verdict.failures ==> out.form == form)
      && (FieldError(LoanAmount) !in out.verdict.failures ==>
            out.form.Keys == form.Keys + {LoanAmountKey}
            && out.form[LoanAmountKey] == Num(ParseFloat(Trim(f.loanAmount))))
      && (forall k | k in form && k != LoanAmountKey :: out.form[k] == form[k])
  {
    assert ValidateCurrentStep(1, f, t, selected, form) == Outcome(Run(BasicDetailsRules(f)), StoreLoanAmount(f, form));
    LoanAmountRule(f);
  }

  /** A non-numeric loan amount passes its rule, and NaN is stored as the amount. */
  lemma NonNumericAmountAccepted(f: Fields, form: FormData)
    requires Trim(f.loanAmount) != "" && ParseFloat(Trim(f.loanAmount)) == NaN
    ensures FieldError(LoanAmount) !in Run(BasicDetailsRules(f)).failures
    ensures StoreLoanAmount(f, form)[LoanAmountKey] == Num(NaN)
  {
    LoanAmountRule(f);
  }

  /** A loan amount written as plain digits is rejected exactly when it is all zeros. */
  lemma DigitAmountRule(f: Fields)
    requires |Trim(f.loanAmount)| > 0 && AllDigits(Trim(f.loanAmount))
    ensures FieldError(LoanAmount) in Run(BasicDetailsRules(f)).failures <==> AllZeros(Trim(f.loanAmount))
  {
    BasicDetailsRaw(f);
    DigitStringSign(Trim(f.loanAmount));
  }

  /** The personal-details rules, each shown exactly when its own condition holds. */
  lemma PersonalDetailsRaw(f: Fields)
    ensures var v := Run(PersonalDetailsRules(f));
      && (FieldError(Address) in v.failures <==> Trim(f.address) == "")
      && (FieldError(Dob) in v.failures <==> f.dob == "")
      && (FieldError(FatherName) in v.failures <==> Trim(f.fatherName) == "")
      && (FieldError(AadharNumber) in v.failures <==> Trim(f.aadharNumber) == "" || !ValidAadhar(Trim(f.aadharNumber)))
      && (FieldError(Email) in v.failures <==> Trim(f.email) == "" || !ValidEmail(Trim(f.email)))
      && (FieldError(Gender) in v.failures <==> f.gender == "")
      && (FieldError(ExistingCustomer) in v.failures <==> f.existingCustomer == "")
      && (FieldError(CifNumber) in v.failures <==> f.existingCustomer == "yes" && Trim(f.cifNumber) == "")
      && (FieldError(ResidenceType) in v.failures <==> f.residenceType == "")
      && (FieldError(YearsAtResidence) in v.failures <==> RejectsNegative(f.yearsAtResidence))
      && |v.failures| <= 10
      && (v.ok <==> v.failures == [])
  {
    PersonalDetailsLayout(PersonalDetailsFails(f));
  }

  /**
    Personal details: the identity checks follow the shapes of the validators,
    and the CIF number is required only from existing customers.
   */
  lemma PersonalDetailsReport(f: Fields)
    ensures var v := Run(PersonalDetailsRules(f));
      && (FieldError(Address) in v.failures <==> AllWhitespace(f.address))
      && (FieldError(Dob) in v.failures <==> f.dob == "")
      && (FieldError(FatherName) in v.failures <==> AllWhitespace(f.fatherName))
      && (FieldError(AadharNumber) in v.failures <==> !AadharShape(Trim(f.aadharNumber)))
      && (FieldError(Email) in v.failures <==> !EmailShape(Trim(f.email)))
      && (FieldError(Gender) in v.failures <==> f.gender == "")
      && (FieldError(ExistingCustomer) in v.failures <==> f.existingCustomer == "")
      && (FieldError(CifNumber) in v.failures <==> f.existingCustomer == "yes" && AllWhitespace(f.cifNumber))
      && (FieldError(ResidenceType) in v.failures <==> f.residenceType == "")
      && (FieldError(YearsAtResidence) in v.failures <==> RejectsNegative(f.yearsAtResidence))
      && |v.failures| <= 10
      && (v.ok <==> v.failures == [])
  {
    PersonalDetailsRaw(f);
    TrimEmptyIff(f.address);
    TrimEmptyIff(f.fatherName);
    TrimEmptyIff(f.cifNumber);
    var aadhar := Trim(f.aadharNumber);
    ValidAadharIff(aadhar);
    if aadhar == "" {
      assert StripWhitespace(aadhar) == "";
    }
    ValidEmailIff(Trim(f.email));
  }

  /** The income-details rules, each shown exactly when its own condition holds. */
  lemma IncomeDetailsRaw(f: Fields)
    ensures var v := Run(IncomeDetailsRules(f));
      && (FieldError(EmployerName) in v.failures <==> Trim(f.employerName) == "")
      && (FieldError(GrossMonthlyIncome) in v.failures <==> RejectsNonPositive(f.grossMonthlyIncome))
      && (FieldError(TotalMonthlyObligation) in v.failures <==> RejectsNegative(f.totalMonthlyObligation))
      && (FieldError(YearsAtEmployer) in v.failures <==> RejectsNegative(f.yearsAtEmployer))
      && (FieldError(OfficialEmailID) in v.failures <==> Trim(f.officialEmailID) == "" || !ValidEmail(Trim(f.officialEmailID)))
      && |v.failures| <= 5
      && (v.ok <==> v.failures == [])
  {
    IncomeDetailsLayout(IncomeDetailsFails(f));
  }

  /** Income details: each error appears exactly when its own field is wrong. */
  lemma IncomeDetailsReport(f: Fields)
    ensures var v := Run(IncomeDetailsRules(f));
      && (FieldError(EmployerName) in v.failures <==> AllWhitespace(f.employerName))
      && (FieldError(GrossMonthlyIncome) in v.failures <==> RejectsNonPositive(f.grossMonthlyIncome))
      && (FieldError(TotalMonthlyObligation) in v.failures <==> RejectsNegative(f.totalMonthlyObligation))
      && (FieldError(YearsAtEmployer) in v.failures <==> RejectsNegative(f.yearsAtEmployer))
      && (FieldError(OfficialEmailID) in v.failures <==> !EmailShape(Trim(f.officialEmailID)))
      && |v.failures| <= 5
      && (v.ok <==> v.failures == [])
  {
    IncomeDetailsRaw(f);
    TrimEmptyIff(f.employerName);
    ValidEmailIff(Trim(f.officialEmailID));
  }

  /**
    Years at residence that are blank but not empty (a single space) pass:
    the value is not trimmed, so it is not empty, and it parses to NaN.
   */
  lemma BlankYearsAccepted(f: Fields)
    requires f.yearsAtResidence == " "
    ensures FieldError(YearsAtResidence) !in Run(PersonalDetailsRules(f)).failures
  {
    PersonalDetailsRaw(f);
    WordsAreNaN(f.yearsAtResidence);
  }

  /** The loan-selection step passes exactly when some option has been chosen. */
  lemma LoanSelectionVerdict(selected: map<string, string>)
    ensures Run(LoanSelectionRules(selected)).ok <==> |selected| > 0
  {
    RunReportsEveryFailure(LoanSelectionRules(selected));
  }

  /**
    The upload step passes exactly when four documents are recorded, and
    otherwise reports how many of the four are missing.
   */
  lemma DocumentUploadVerdict(t: Tracker)
    ensures Run(DocumentUploadRules(t)).ok <==> CountComplete(t)
    ensures !CountComplete(t) ==> Run(DocumentUploadRules(t)).failures == [DocumentsMissing(4 - |t|)] && 1 <= 4 - |t| <= 4
  {
    var rules := DocumentUploadRules(t);
    RunSnoc([], rules[0]);
    assert [] + [rules[0]] == rules;
  }

  /** Only the basic-details check writes to the form record. */
  lemma OnlyBasicDetailsWritesForm(step: nat, f: Fields, t: Tracker, selected: map<string, string>, form: FormData)
    requires step != 1
    ensures ValidateCurrentStep(step, f, t, selected, form).form == form
  {
  }

  /** The offer page and every step from 6 on pass without reporting anything. */
  lemma UncheckedStepsPass(step: nat, f: Fields, t: Tracker, selected: map<string, string>, form: FormData)
    requires step == 4 || step >= 6
    ensures ValidateCurrentStep(step, f, t, selected, form) == Outcome(Verdict(true, []), form)
  {
  }
}

=== FILE: uploads.dfy ===
/**
  The upload tracker (`uploadedDocuments`): which document boxes have a file
  recorded against them, and the two different completeness checks read from
  it — a count of recorded keys (the step check) and a test that every
  required document id is present (the proceed-button label).
 */
module Uploads {

  /** What is recorded for an uploaded file: name, size in bytes, MIME type, upload time. */
  datatype DocMeta = DocMeta(name: string, size: nat, mimeType: string, uploadedAt: int)

  /** Document id (the upload box's element id) to the file recorded for it. */
  type Tracker = map<string, DocMeta>

  const RequiredDocs: seq<string> := ["bankStatement", "dealerInvoice", "gstDoc", "itrDoc"]

  /** The required ids as a set. */
  const RequiredSet: set<string> := set i | 0 <= i < |RequiredDocs| :: RequiredDocs[i]

  /** Files larger than 5 MB are refused before anything is recorded. */
  const MaxFileBytes: nat := 5 * 1024 * 1024

  /** A completed (re-)upload: the entry for `id` is created or overwritten. */
  function Record(t: Tracker, id: string, meta: DocMeta): (r: Tracker)
    ensures r.Keys == t.Keys + {id}
    ensures r[id] == meta
    ensures forall k | k in t && k != id :: r[k] == t[k]
    ensures |r| == if id in t then |t| else |t| + 1
  {
    var r := t[id := meta];
    assert r.Keys == t.Keys + {id};
    r
  }

  /** The step check: at least four keys are recorded, whatever they are. */
  predicate CountComplete(t: Tracker) {
    !(|t| < 4)
  }

  /** The number the step check reports as still missing. */
  function Remaining(t: Tracker): int {
    4 - |t|
  }

  /** The proceed-button check: each required document id has an entry. */
  predicate AllRequiredPresent(t: Tracker) {
    forall i | 0 <= i < |RequiredDocs| :: RequiredDocs[i] in t
  }

  /** The proceed button's label. */
  datatype ProceedLabel = AllUploaded | UploadMore(count: int)

  function ProceedButton(t: Tracker): ProceedLabel {
    if AllRequiredPresent(t) then AllUploaded else UploadMore(4 - |t|)
  }

  // ---------------------------------------------------------------------------
  // How the two checks relate

  lemma SubsetCard<T>(a: set<T>, b: set<T>)
    requires a <= b
    ensures |a| <= |b|
    ensures a < b ==> |a| < |b|
  {
    assert b == a + (b - a);
    if a < b {
      var x :| x in b - a;
    }
  }

  /** The four required ids are distinct. */
  lemma RequiredSetSize()
    ensures |RequiredSet| == 4
    ensures forall d :: d in RequiredSet <==> d in RequiredDocs
  {
    assert RequiredSet == {RequiredDocs[0], RequiredDocs[1], RequiredDocs[2], RequiredDocs[3]};
  }

  lemma AllRequiredIff(t: Tracker)
    ensures AllRequiredPresent(t) <==> RequiredSet <= t.Keys
  {
    RequiredSetSize();
    if AllRequiredPresent(t) {
      forall d | d in RequiredSet
        ensures d in t
      {
        var i :| 0 <= i < |RequiredDocs| && RequiredDocs[i] == d;
      }
    }
  }

  /** Every required document present means the count check passes too. */
  lemma RequiredImpliesCount(t: Tracker)
    requires AllRequiredPresent(t)
    ensures CountComplete(t)
    ensures Remaining(t) <= 0
  {
    AllRequiredIff(t);
    RequiredSetSize();
    SubsetCard(RequiredSet, t.Keys);
  }

  /** When only required ids can be recorded, the two checks agree. */
  lemma ChecksAgreeOnRequiredIds(t: Tracker)
    requires t.Keys <= RequiredSet
    ensures CountComplete(t) <==> AllRequiredPresent(t)
  {
    AllRequiredIff(t);
    RequiredSetSize();
    SubsetCard(t.Keys, RequiredSet);
    if AllRequiredPresent(t) {
      RequiredImpliesCount(t);
    }
  }

  /** Four unrelated ids satisfy the count check but not the required-id check. */
  lemma ChecksDiverge(meta: DocMeta)
    ensures var t := map["a" := meta, "b" := meta, "c" := meta, "d" := meta];
      CountComplete(t) && !AllRequiredPresent(t)
  {
    var t := map["a" := meta, "b" := meta, "c" := meta, "d" := meta];
    assert t.Keys == {"a", "b", "c", "d"};
    assert RequiredDocs[0] !in t;
  }

  /**
    With five entries, one of them unrelated and one required document still
    missing, the proceed button asks for "-1 more" documents.
   */
  lemma LabelCountGoesNegative(meta: DocMeta)
    ensures var t := map["bankStatement" := meta, "dealerInvoice" := meta, "gstDoc" := meta, "x" := meta, "y" := meta];
      ProceedButton(t) == UploadMore(-1)
  {
    var t := map["bankStatement" := meta, "dealerInvoice" := meta, "gstDoc" := meta, "x" := meta, "y" := meta];
    assert t.Keys == {"bankStatement", "dealerInvoice", "gstDoc", "x", "y"};
    assert RequiredDocs[3] !in t;
  }

  /**
    Three of the four required documents recorded: neither check passes and
    one document is reported missing; recording the fourth completes both.
   */
  lemma FourthDocumentCompletes(t: Tracker, missing: string, meta: DocMeta)
    requires missing in RequiredSet
    requires t.Keys == RequiredSet - {missing}
    ensures !AllRequiredPresent(t) && !CountComplete(t) && Remaining(t) == 1
    ensures AllRequiredPresent(Record(t, missing, meta)) && CountComplete(Record(t, missing, meta))
  {
    RequiredSetSize();
    assert RequiredSet == t.Keys + {missing};
    AllRequiredIff(t);
    AllRequiredIff(Record(t, missing, meta));
    RequiredImpliesCount(Record(t, missing, meta));
  }
}

=== FILE: validators.dfy ===
/**
  The four field validators of the application form, each the `test` of a
  fixed regular expression, and the plain character-level description of the
  strings each one accepts.
 */
module Validators {
  import opened Chars
  import opened Regex

  const Digits := Range('0', '9')
  const Capitals := Range('A', 'Z')
  const NameChars := NonSpaceExcept('@')

  /** `^[6-9]\d{9}$` */
  const MobilePattern := [Piece(Range('6', '9'), Exactly(1)), Piece(Digits, Exactly(9))]

  /** `^[A-Z]{5}[0-9]{4}[A-Z]{1}$` */
  const PanPattern := [Piece(Capitals, Exactly(5)), Piece(Digits, Exactly(4)), Piece(Capitals, Exactly(1))]

  /** `^\d{12}$` */
  const AadharPattern := [Piece(Digits, Exactly(12))]

  /** `^[^\s@]+@[^\s@]+\.[^\s@]+$` */
  const EmailPattern := [
    Piece(NameChars, AtLeast(1)), Piece(Literal('@'), Exactly(1)),
    Piece(NameChars, AtLeast(1)), Piece(Literal('.'), Exactly(1)),
    Piece(NameChars, AtLeast(1))]

  predicate ValidMobile(s: string) {
    FullMatch(MobilePattern, s)
  }

  predicate ValidPan(s: string) {
    FullMatch(PanPattern, s)
  }

  /** Whitespace anywhere is removed before the pattern is tested. */
  predicate ValidAadhar(s: string) {
    FullMatch(AadharPattern, StripWhitespace(s))
  }

  predicate ValidEmail(s: string) {
    FullMatch(EmailPattern, s)
  }

  // ---------------------------------------------------------------------------
  // What each pattern accepts, stated without patterns

  /** Ten ASCII digits, the first of them 6, 7, 8 or 9 (Indian mobile numbering). */
  predicate MobileShape(s: string) {
    |s| == 10 && '6' <= s[0] <= '9' && AllDigits(s)
  }

  /** Five capitals, four digits, one capital. */
  predicate PanShape(s: string) {
    |s| == 10 && AllUpper(s[..5]) && AllDigits(s[5..9]) && IsUpper(s[9])
  }

  /** Twelve ASCII digits once whitespace is ignored. */
  predicate AadharShape(s: string) {
    var d := StripWhitespace(s);
    |d| == 12 && AllDigits(d)
  }

  /** The domain part has a dot that is neither its first nor its last character. */
  predicate InnerDot(d: string) {
    exists j | 0 < j < |d| - 1 :: d[j] == '.'
  }

  /** `s[a]` is the only `@` in `s`. */
  predicate OnlyAtSignAt(s: string, a: int) {
    0 <= a < |s| && s[a] == '@' && forall i | 0 <= i < |s| && i != a :: s[i] != '@'
  }

  /**
    No whitespace, exactly one `@`, something before it, and after it a domain
    with a dot that is neither its first nor its last character.
   */
  predicate EmailShape(s: string) {
    NoWhitespace(s) && exists a | 0 < a < |s| :: OnlyAtSignAt(s, a) && InnerDot(s[a + 1..])
  }

  // ---------------------------------------------------------------------------
  // The patterns accept exactly the shapes

  lemma DigitsAreDigits(s: string)
    ensures AllIn(s, Digits) <==> AllDigits(s)
  {
  }

  lemma ValidMobileIff(s: string)
    ensures ValidMobile(s) <==> MobileShape(s)
  {
    var p := MobilePattern;
    FixedHead(p, s);
    if |s| >= 1 {
      FixedHead(p[1..], s[1..]);
      assert p[1..][1..] == [];
      if |s| == 10 {
        assert s[1..][9..] == [];
        DigitsAreDigits(s[1..][..9]);
        assert s[1..][..9] == s[1..];
        assert AllDigits(s) <==> IsDigit(s[0]) && AllDigits(s[1..]);
      }
    }
  }

  lemma ValidPanIff(s: string)
    ensures ValidPan(s) <==> PanShape(s)
  {
    var p := PanPattern;
    FixedHead(p, s);
    if |s| >= 5 {
      var t := s[5..];
      FixedHead(p[1..], t);
      if |t| >= 4 {
        var u := t[4..];
        FixedHead(p[1..][1..], u);
        assert p[1..][1..][1..] == [];
        assert t[..4] == s[5..9];
        DigitsAreDigits(s[5..9]);
        if |s| == 10 {
          assert u[..1] == [s[9]];
        }
      }
    }
  }

  lemma ValidAadharIff(s: string)
    ensures ValidAadhar(s) <==> AadharShape(s)
  {
    var d := StripWhitespace(s);
    SinglePiece(AadharPattern[0], d);
    DigitsAreDigits(d);
  }

  /** Whitespace inserted anywhere never changes the Aadhar verdict. */
  lemma AadharIgnoresWhitespace(s: string, i: nat, w: char)
    requires i <= |s|
    requires IsWhitespace(w)
    ensures ValidAadhar(s[..i] + [w] + s[i..]) == ValidAadhar(s)
  {
    StripIgnoresInsertedSpace(s, i, w);
  }

  /** Every character of a slice of `s` lies in any class all of `s` lies in. */
  lemma AllInSlice(s: string, i: nat, j: nat, k: CharClass)
    requires i <= j <= |s| && AllIn(s, k)
    ensures AllIn(s[i..j], k)
  {
    forall t | 0 <= t < j - i
      ensures InClass(s[i..j][t], k)
    {
      assert s[i..j][t] == s[i + t];
    }
  }

  /** A match of `[^\s@]+\.[^\s@]+$` is a domain with no whitespace or `@` and an inner dot. */
  lemma DomainSound(d: string)
    requires FullMatch(EmailPattern[2..], d)
    ensures AllIn(d, NameChars) && InnerDot(d)
  {
    var p := EmailPattern[2..];
    var k := HeadRun(p, d);
    assert p[1..] == [Piece(Literal('.'), Exactly(1)), Piece(NameChars, AtLeast(1))];
    FixedHead(p[1..], d[k..]);
    var rest := d[k..][1..];
    assert p[1..][1..] == [Piece(NameChars, AtLeast(1))];
    SinglePiece(Piece(NameChars, AtLeast(1)), rest);
    assert d[k..][..1][0] == d[k];
    forall i | 0 <= i < |d|
      ensures InClass(d[i], NameChars)
    {
      if i < k {
        assert d[i] == d[..k][i];
      } else if i > k {
        assert d[i] == rest[i - k - 1];
      }
    }
    assert 0 < k < |d| - 1 && d[k] == '.';
  }

  /** A domain with no whitespace or `@` and an inner dot matches `[^\s@]+\.[^\s@]+$`. */
  lemma DomainComplete(d: string)
    requires AllIn(d, NameChars) && InnerDot(d)
    ensures FullMatch(EmailPattern[2..], d)
  {
    var p := EmailPattern[2..];
    var j :| 0 < j < |d| - 1 && d[j] == '.';
    var rest := d[j + 1..];
    AllInSlice(d, j + 1, |d|, NameChars);
    SinglePiece(Piece(NameChars, AtLeast(1)), rest);
    assert p[1..][1..] == [Piece(NameChars, AtLeast(1))];
    assert d[j..][1..] == rest;
    assert d[j..][..1] == ['.'];
    FixedHead(p[1..], d[j..]);
    AllInSlice(d, 0, j, NameChars);
    assert d[0..j] == d[..j];
    HeadRunMatches(p, d, j);
  }

  lemma EmailSound(s: string)
    requires ValidEmail(s)
    ensures EmailShape(s)
  {
    var p := EmailPattern;
    var a := HeadRun(p, s);
    FixedHead(p[1..], s[a..]);
    var d := s[a..][1..];
    assert d == s[a + 1..];
    assert p[1..][1..] == EmailPattern[2..];
    DomainSound(d);
    assert s[a..][..1][0] == s[a];
    forall i | 0 <= i < |s| && i != a
      ensures InClass(s[i], NameChars)
    {
      if i < a {
        assert s[i] == s[..a][i];
      } else {
        assert s[i] == d[i - a - 1];
      }
    }
    assert OnlyAtSignAt(s, a);
  }

  lemma EmailComplete(s: string)
    requires EmailShape(s)
    ensures ValidEmail(s)
  {
    var p := EmailPattern;
    var a :| 0 < a < |s| && OnlyAtSignAt(s, a) && InnerDot(s[a + 1..]);
    var d := s[a + 1..];
    assert AllIn(d, NameChars) by {
      forall i | 0 <= i < |d|
        ensures InClass(d[i], NameChars)
      {
        assert d[i] == s[a + 1 + i];
      }
    }
    DomainComplete(d);
    assert s[a..][1..] == d;
    assert s[a..][..1] == ['@'];
    assert p[1..][1..] == EmailPattern[2..];
    FixedHead(p[1..], s[a..]);
    assert AllIn(s[..a], NameChars) by {
      forall i | 0 <= i < a
        ensures InClass(s[..a][i], NameChars)
      {
        assert s[..a][i] == s[i];
      }
    }
    HeadRunMatches(p, s, a);
  }

  lemma ValidEmailIff(s: string)
    ensures ValidEmail(s) <==> EmailShape(s)
  {
    if ValidEmail(s) {
      EmailSound(s);
    }
    if EmailShape(s) {
      EmailComplete(s);
    }
  }

  // ---------------------------------------------------------------------------
  // Worked examples

  lemma MobileExamples()
    ensures ValidMobile("9876543210")
    ensures !ValidMobile("5876543210")
  {
    ValidMobileIff("9876543210");
    ValidMobileIff("5876543210");
  }

  lemma PanExamples()
    ensures ValidPan("ABCDE1234F")
    ensures !ValidPan("ABCD1234F")
  {
    ValidPanIff("ABCDE1234F");
    ValidPanIff("ABCD1234F");
  }

  /** Twelve digits printed in three groups of four, as on the card, are accepted. */
  lemma AadharGroupedAccepted(a: string, b: string, c: string)
    requires |a| == |b| == |c| == 4
    requires AllDigits(a + b + c)
    ensures ValidAadhar(a + " " + b + " " + c)
  {
    var digits := a + b + c;
    assert NoWhitespace(digits);
    StripKeepsSpaceless(digits);
    var once := a + b + " " + c;
    assert once == digits[..8] + [' '] + digits[8..];
    StripIgnoresInsertedSpace(digits, 8, ' ');
    assert a + " " + b + " " + c == once[..4] + [' '] + once[4..];
    StripIgnoresInsertedSpace(once, 4, ' ');
    ValidAadharIff(a + " " + b + " " + c);
  }

  lemma AadharShortRejected()
    ensures !ValidAadhar("12345")
  {
    assert |StripWhitespace("12345")| <= 5;
    ValidAadharIff("12345");
  }

  lemma EmailExamples()
    ensures ValidEmail("a.b@mail.co")
    ensures !ValidEmail("a@b")
    ensures !ValidEmail("a@b@c.in")
  {
    var e := "a.b@mail.co";
    assert OnlyAtSignAt(e, 3);
    assert e[4..][4] == '.';
    assert InnerDot(e[4..]);
    EmailComplete(e);
    ValidEmailIff("a@b");
    var f := "a@b@c.in";
    ValidEmailIff(f);
    forall a | 0 < a < |f|
      ensures !OnlyAtSignAt(f, a)
    {
      assert f[1] == '@' && f[3] == '@';
    }
  }
}

=== FILE: wizard.dfy ===
/**
  The wizard itself: which step is current, what the in-memory record, the
  upload tracker and the selection buttons hold, and how each navigation
  function and event handler changes them. The page's controls are an input
  to each transition; drawing the page is reduced to three pure display
  functions (which section is shown, whether the progress stepper is shown,
  and the class of each stepper item).
 */
module Wizard {
  import opened Options
  import opened JsNumber
  import opened FormStore
  import opened Uploads
  import opened StepChecks

  /** What the page's controls hold when a handler runs: the fields the checks read and the `input` elements a save reads. */
  datatype Page = Page(fields: Fields, inputs: seq<Input>)

  /**
    `step` is `currentStep`; `form` is `formData`; `uploads` is
    `uploadedDocuments`; `selected` maps each selection group's label to the
    value of its active button; `subTypeShown` is the display of the loan
    sub-type section; `stepperAt` is the step the stepper items were last
    classified for (None before the first classification); `saved` is the
    record last written to local storage (None when nothing is stored).
   */
  datatype State = State(
    step: nat,
    form: FormData,
    uploads: Tracker,
    selected: map<string, string>,
    subTypeShown: bool,
    stepperAt: Option<nat>,
    saved: Option<FormData>)

  /** The page as first loaded, before any saved record is restored. */
  function Initial(): State {
    State(0, Defaults, map[], map[], false, None, None)
  }

  // ---------------------------------------------------------------------------
  // Display

  /** The progress stepper is hidden on the selection page and from the upload page on. */
  predicate StepperVisible(step: nat) {
    !(step == 0 || step >= 5)
  }

  datatype StepClass = Active | Completed | Plain

  /** The class `updateProgressStepper` gives the stepper item numbered `n`. */
  function ClassFor(current: nat, n: nat): StepClass {
    if n == current then Active else if n < current then Completed else Plain
  }

  datatype Section = LoanSelection | FormStep(n: nat) | DocumentUpload | FinalApproval | ThankYou | NoSection

  /** The one section `updateStepDisplay` leaves visible; past step 7 none is. */
  function ShownSection(step: nat): Section {
    if step == 0 then LoanSelection
    else if step <= 4 then FormStep(step)
    else if step == 5 then DocumentUpload
    else if step == 6 then FinalApproval
    else if step == 7 then ThankYou
    else NoSection
  }

  // ---------------------------------------------------------------------------
  // Transitions

  /** `saveFormData`: copy every `input` into the record, then store the record. */
  function SaveForm(s: State, inputs: seq<Input>): State {
    var form := SaveInputs(s.form, inputs);
    s.(form := form, saved := Some(form))
  }

  /**
    `nextStep`: run the current step's check; on success save the form,
    advance by one, and reclassify the stepper unless the new step is 5 or 6.
    A failed check leaves the step where it is but keeps what the check wrote
    into the record (the loan amount of step 1).
   */
  function NextStep(s: State, page: Page): State {
    var out := ValidateCurrentStep(s.step, page.fields, s.uploads, s.selected, s.form);
    if !out.verdict.ok then s.(form := out.form)
    else
      var saved := SaveForm(s.(form := out.form), page.inputs);
      var n := s.step + 1;
      saved.(step := n, stepperAt := if n == 5 || n == 6 then s.stepperAt else Some(n))
  }

  /** `prevStep`: step back unless on the selection page; the stepper is reclassified for steps 1 to 4. */
  function PrevStep(s: State): State {
    if s.step > 0 then
      var n := s.step - 1;
      s.(step := n, stepperAt := if 1 <= n <= 4 then Some(n) else s.stepperAt)
    else s
  }

  /** `startApplication`: store the selections, then go to step 1. */
  function StartApplication(s: State): State {
    var form := SaveSelections(s.form, s.selected);
    s.(form := form, saved := Some(form), step := 1, stepperAt := Some(1))
  }

  /**
    A click on a selection button: it becomes its group's active button; the
    sub-type section appears for `vehicle` and disappears for any other value
    of the group that offers `vehicle`.
   */
  function Select(s: State, group: string, value: string, groupOffersVehicle: bool): State {
    var shown := if value == "vehicle" then true else if groupOffersVehicle then false else s.subTypeShown;
    s.(selected := s.selected[group := value], subTypeShown := shown)
  }

  function ShowLoanSelection(s: State): State {
    s.(step := 0)
  }

  function ShowDocumentUpload(s: State): State {
    if s.step < 5 then s.(step := 5) else s
  }

  function ShowFinalApproval(s: State): State {
    s.(step := 6)
  }

  /** The thank-you page, reached after the loading delay. */
  function ShowThankYou(s: State): State {
    s.(step := 7)
  }

  /** A file chosen for document box `id`: refused above 5 MB, otherwise recorded once the upload delay ends. */
  function AttachFile(s: State, id: string, meta: DocMeta): State {
    if meta.size > MaxFileBytes then s else s.(uploads := Record(s.uploads, id, meta))
  }

  /**
    `resetApplication`: forget the stored record, restore the default record,
    drop every upload and selection, and return to the selection page. The
    stepper items and the sub-type section are left as they were.
   */
  function Reset(s: State): State {
    s.(step := 0, form := Defaults, uploads := map[], selected := map[], saved := None)
  }

  datatype Action =
    | Next(page: Page)
    | Prev
    | Start
    | Choose(group: string, value: string, groupOffersVehicle: bool)
    | Edit(inputs: seq<Input>)
    | GoToSelection
    | GoToUpload
    | GoToApproval
    | GoToThanks
    | Attach(id: string, meta: DocMeta)
    | Restart

  function Apply(s: State, a: Action): State {
    match a
    case Next(page) => NextStep(s, page)
    case Prev => PrevStep(s)
    case Start => StartApplication(s)
    case Choose(g, v, offersVehicle) => Select(s, g, v, offersVehicle)
    case Edit(inputs) => SaveForm(s, inputs)
    case GoToSelection => ShowLoanSelection(s)
    case GoToUpload => ShowDocumentUpload(s)
    case GoToApproval => ShowFinalApproval(s)
    case GoToThanks => ShowThankYou(s)
    case Attach(id, meta) => AttachFile(s, id, meta)
    case Restart => Reset(s)
  }

  function ApplyAll(s: State, actions: seq<Action>): State
    decreases |actions|
  {
    if actions == [] then s else ApplyAll(Apply(s, actions[0]), actions[1..])
  }

  // ---------------------------------------------------------------------------
  // Moving forward and back

  /**
    `nextStep` advances by exactly one when the current step's check passes
    and otherwise stays put; uploads, selections and the sub-type section are
    never touched.
   */
  lemma NextStepMoves(s: State, page: Page)
    ensures var ok := ValidateCurrentStep(s.step, page.fields, s.uploads, s.selected, s.form).verdict.ok;
      var t := NextStep(s, page);
      && (t.step == s.step + 1 <==> ok)
      && (!ok ==> t.step == s.step && t.saved == s.saved && t.stepperAt == s.stepperAt)
      && t.uploads == s.uploads && t.selected == s.selected && t.subTypeShown == s.subTypeShown
  {
  }

  /** A failed check changes nothing, except that step 1 may already have stored the loan amount. */
  lemma FailedCheckKeepsState(s: State, page: Page)
    requires !ValidateCurrentStep(s.step, page.fields, s.uploads, s.selected, s.form).verdict.ok
    ensures s.step != 1 ==> NextStep(s, page) == s
    ensures s.step == 1 ==> NextStep(s, page) == s.(form := StoreLoanAmount(page.fields, s.form))
  {
    if s.step != 1 {
      OnlyBasicDetailsWritesForm(s.step, page.fields, s.uploads, s.selected, s.form);
    }
  }

  /** The offer page and every step from 6 on always move forward: nothing bounds the step from above. */
  lemma NextStepNeverBlocked(s: State, page: Page)
    requires s.step == 4 || s.step >= 6
    ensures NextStep(s, page).step == s.step + 1
    ensures s.step >= 7 ==> ShownSection(NextStep(s, page).step) == NoSection
  {
    UncheckedStepsPass(s.step, page.fields, s.uploads, s.selected, s.form);
  }

  /**
    A successful `nextStep` saves the page: each input id holds the value of
    the last input with that id, a key no input has keeps the value the
    check left, and the stored copy equals the record.
   */
  lemma NextStepSavesInputs(s: State, page: Page, key: string)
    requires ValidateCurrentStep(s.step, page.fields, s.uploads, s.selected, s.form).verdict.ok
    ensures var out := ValidateCurrentStep(s.step, page.fields, s.uploads, s.selected, s.form);
      var t := NextStep(s, page);
      && t.saved == Some(t.form)
      && (key in t.form <==> key in out.form || Mentions(page.inputs, key))
      && (key in out.form && !Mentions(page.inputs, key) ==> t.form[key] == out.form[key])
      && (forall j | 0 <= j < |page.inputs| && page.inputs[j].id == key && LastWithId(page.inputs, j) ::
            key in t.form && t.form[key] == ValueOf(page.inputs[j].control))
  {
    var out := ValidateCurrentStep(s.step, page.fields, s.uploads, s.selected, s.form);
    SaveInputsAt(out.form, page.inputs, key);
  }

  /** `prevStep` steps back by exactly one, and does nothing at all on the selection page. */
  lemma PrevStepMoves(s: State)
    ensures s.step > 0 ==> PrevStep(s).step == s.step - 1
    ensures s.step == 0 ==> PrevStep(s) == s
    ensures PrevStep(s).form == s.form && PrevStep(s).uploads == s.uploads && PrevStep(s).selected == s.selected
    ensures PrevStep(s).saved == s.saved && PrevStep(s).subTypeShown == s.subTypeShown
  {
  }

  /** At the selection page `prevStep` is idempotent. */
  lemma PrevStepIdempotentAtStart(s: State)
    requires s.step == 0
    ensures PrevStep(PrevStep(s)) == PrevStep(s) == s
  {
  }

  /** Going back after a successful `nextStep` returns to the step the wizard was on. */
  lemma PrevUndoesNext(s: State, page: Page)
    requires ValidateCurrentStep(s.step, page.fields, s.uploads, s.selected, s.form).verdict.ok
    ensures PrevStep(NextStep(s, page)).step == s.step
  {
    NextStepMoves(s, page);
  }

  /** `k` presses of the back button. */
  function Backs(k: nat): (r: seq<Action>)
    ensures |r| == k
    ensures forall i | 0 <= i < k :: r[i] == Prev
  {
    if k == 0 then [] else [Prev] + Backs(k - 1)
  }

  /** Going back `k` times moves back `k` steps, stopping at the selection page and never below it. */
  lemma {:induction false} RepeatedBack(s: State, k: nat)
    ensures ApplyAll(s, Backs(k)).step == if k <= s.step then s.step - k else 0
    decreases k
  {
    if k > 0 {
      assert Backs(k)[1..] == Backs(k - 1);
      RepeatedBack(PrevStep(s), k - 1);
    }
  }

  // ---------------------------------------------------------------------------
  // Jumps, selections, uploads and reset

  /**
    `showDocumentUpload` only ever moves forward, to the upload page, leaving
    everything but the step alone, and a second call changes nothing.
   */
  lemma ShowDocumentUploadForward(s: State)
    ensures ShowDocumentUpload(s).step == if s.step < 5 then 5 else s.step
    ensures s.step >= 5 ==> ShowDocumentUpload(s) == s
    ensures ShowDocumentUpload(ShowDocumentUpload(s)) == ShowDocumentUpload(s)
    ensures s.step < 5 ==> var t := ShowDocumentUpload(s);
      && t.form == s.form && t.uploads == s.uploads && t.selected == s.selected && t.saved == s.saved
      && t.stepperAt == s.stepperAt && t.subTypeShown == s.subTypeShown
  {
  }

  /**
    `showLoanSelection` returns to the selection page from any step, hiding the
    stepper, and leaves the record, uploads and selections alone.
   */
  lemma ShowLoanSelectionEffects(s: State)
    ensures var t := ShowLoanSelection(s);
      && ShownSection(t.step) == LoanSelection && !StepperVisible(t.step)
      && t.form == s.form && t.uploads == s.uploads && t.selected == s.selected && t.saved == s.saved
  {
  }

  /**
    `showFinalApproval` opens the final-approval page from any step; it does
    not run the upload check, so it gets there from the upload page even with
    fewer than four documents recorded.
   */
  lemma ShowFinalApprovalEffects(s: State)
    ensures var t := ShowFinalApproval(s);
      && ShownSection(t.step) == FinalApproval && !StepperVisible(t.step)
      && t.form == s.form && t.uploads == s.uploads && t.selected == s.selected && t.saved == s.saved
    ensures s.step == 5 && !CountComplete(s.uploads) ==>
      !Run(DocumentUploadRules(s.uploads)).ok && ShowFinalApproval(s).step == 6
  {
    DocumentUploadVerdict(s.uploads);
  }

  /** `showThankYou` ends on the thank-you page from any step, leaving the record, uploads and selections alone. */
  lemma ShowThankYouEffects(s: State)
    ensures var t := ShowThankYou(s);
      && ShownSection(t.step) == ThankYou && !StepperVisible(t.step)
      && t.form == s.form && t.uploads == s.uploads && t.selected == s.selected && t.saved == s.saved
  {
  }

  /** `startApplication` stores the selections made so far and opens step 1; uploads and selections stay as they were. */
  lemma StartApplicationStoresSelections(s: State)
    ensures var t := StartApplication(s);
      && t.step == 1
      && t.form[SelectionsKey] == Choices(s.selected)
      && t.saved == Some(t.form)
      && (forall k | k in s.form && k != SelectionsKey :: t.form[k] == s.form[k])
      && t.uploads == s.uploads && t.selected == s.selected && t.subTypeShown == s.subTypeShown
  {
  }

  /**
    After a click the clicked value is its group's selection, which makes the
    selection page's check pass; the sub-type section is shown exactly when
    `vehicle` was clicked, or it was shown and the group does not offer `vehicle`.
    A click does not write the record: selections reach it only through
    `startApplication`.
   */
  lemma SelectEffects(s: State, group: string, value: string, groupOffersVehicle: bool)
    ensures var t := Select(s, group, value, groupOffersVehicle);
      && t.selected[group] == value
      && (forall g | g in s.selected && g != group :: t.selected[g] == s.selected[g])
      && Run(LoanSelectionRules(t.selected)).ok
      && (t.subTypeShown <==> value == "vehicle" || (!groupOffersVehicle && s.subTypeShown))
      && t.step == s.step
      && t.form == s.form && t.uploads == s.uploads && t.saved == s.saved && t.stepperAt == s.stepperAt
  {
    var t := Select(s, group, value, groupOffersVehicle);
    assert group in t.selected;
    RunReportsEveryFailure(LoanSelectionRules(t.selected));
  }

  /**
    An oversized file changes nothing; any other file is recorded under its
    box's id, and only a box without an earlier file adds to the count.
    Nothing else changes: in particular uploads are never written to storage.
   */
  lemma AttachFileEffects(s: State, id: string, meta: DocMeta)
    ensures meta.size > MaxFileBytes ==> AttachFile(s, id, meta) == s
    ensures meta.size <= MaxFileBytes ==>
      var u := AttachFile(s, id, meta).uploads;
      && id in u && u[id] == meta
      && (|u| == |s.uploads| <==> id in s.uploads)
      && (forall k | k in s.uploads && k != id :: u[k] == s.uploads[k])
    ensures meta.size <= MaxFileBytes ==>
      var t := AttachFile(s, id, meta);
      && t.step == s.step && t.form == s.form && t.selected == s.selected && t.saved == s.saved
      && t.stepperAt == s.stepperAt && t.subTypeShown == s.subTypeShown
  {
  }

  /**
    Reset gives exactly the default record, no uploads, no selections,
    nothing stored and the selection page, whatever came before; two states
    reset to the same state exactly when their stepper and sub-type section
    agree, so resetting twice is resetting once.
   */
  lemma ResetRestoresDefaults(s: State, s': State)
    ensures var t := Reset(s);
      && t.step == 0 && t.uploads == map[] && t.selected == map[] && t.saved == None
      && t.form == map[LoanAmountKey := Num(Finite(1000000.0)), InterestRateKey := Num(Finite(8.5)), TenureKey := Num(Finite(84.0))]
    ensures Reset(s) == Reset(s') <==> s.stepperAt == s'.stepperAt && s.subTypeShown == s'.subTypeShown
    ensures Reset(Reset(s)) == Reset(s)
  {
  }

  // ---------------------------------------------------------------------------
  // What the progress stepper shows

  /** The stepper is shown exactly on the four form steps, the only steps whose section is a form step. */
  lemma StepperVisibleIff(step: nat)
    ensures StepperVisible(step) <==> 1 <= step <= 4
    ensures StepperVisible(step) <==> ShownSection(step).FormStep?
  {
  }

  /** The step whose content a section is, if any. */
  function StepOf(sec: Section): Option<nat> {
    match sec
    case LoanSelection => Some(0)
    case FormStep(n) => if 1 <= n <= 4 then Some(n) else None
    case DocumentUpload => Some(5)
    case FinalApproval => Some(6)
    case ThankYou => Some(7)
    case NoSection => None
  }

  /**
    Each of the steps 0 to 7 shows its own section, so two different steps
    never show the same one, and every step past 7 shows none.
   */
  lemma SectionPerStep(step: nat, other: nat)
    ensures step <= 7 <==> StepOf(ShownSection(step)) == Some(step)
    ensures ShownSection(step) == NoSection <==> step >= 8
    ensures step != other && step <= 7 ==> ShownSection(step) != ShownSection(other)
  {
  }

  function ItemsWith(current: nat, c: StepClass): set<nat> {
    set n: nat | 1 <= n <= 4 && ClassFor(current, n) == c
  }

  /** The numbers from `a` up to but excluding `b`. */
  function Interval(a: nat, b: nat): (r: set<nat>)
    ensures forall n :: n in r <==> a <= n < b
    ensures |r| == if a <= b then b - a else 0
    decreases b - a
  {
    if a >= b then {} else {a} + Interval(a + 1, b)
  }

  lemma ActiveItems(current: nat)
    requires 1 <= current <= 4
    ensures ItemsWith(current, Active) == {current}
  {
    forall n: nat
      ensures n in ItemsWith(current, Active) <==> n == current
    {
    }
  }

  lemma CompletedItems(current: nat)
    requires 1 <= current <= 4
    ensures ItemsWith(current, Completed) == Interval(1, current)
  {
    forall n: nat
      ensures n in ItemsWith(current, Completed) <==> n in Interval(1, current)
    {
    }
  }

  lemma PlainItems(current: nat)
    requires 1 <= current <= 4
    ensures ItemsWith(current, Plain) == Interval(current + 1, 5)
  {
    forall n: nat
      ensures n in ItemsWith(current, Plain) <==> n in Interval(current + 1, 5)
    {
    }
  }

  /** On a form step exactly one of the four items is active, the items before it are completed, and the rest plain. */
  lemma StepperClasses(current: nat)
    requires 1 <= current <= 4
    ensures ItemsWith(current, Active) == {current}
    ensures ItemsWith(current, Completed) == Interval(1, current)
    ensures |ItemsWith(current, Completed)| == current - 1
    ensures |ItemsWith(current, Plain)| == 4 - current
  {
    ActiveItems(current);
    CompletedItems(current);
    PlainItems(current);
  }

  /** The stepper, when shown, was last classified for the current step. */
  predicate Coherent(s: State) {
    StepperVisible(s.step) ==> s.stepperAt == Some(s.step)
  }

  lemma ApplyKeepsCoherent(s: State, a: Action)
    requires Coherent(s)
    ensures Coherent(Apply(s, a))
  {
    match a
    case Next(page) =>
      NextStepMoves(s, page);
    case _ =>
  }

  lemma {:induction false} ApplyAllKeepsCoherent(s: State, actions: seq<Action>)
    requires Coherent(s)
    ensures Coherent(ApplyAll(s, actions))
    decreases |actions|
  {
    if actions != [] {
      ApplyKeepsCoherent(s, actions[0]);
      ApplyAllKeepsCoherent(Apply(s, actions[0]), actions[1..]);
    }
  }

  /**
    Whatever the user does from a fresh page, whenever the stepper is shown
    its active item is the current step and the items before it are completed.
   */
  lemma StepperMarksCurrentStep(actions: seq<Action>)
    ensures var s := ApplyAll(Initial(), actions);
      StepperVisible(s.step) ==>
        s.stepperAt == Some(s.step)
        && ItemsWith(s.stepperAt.value, Active) == {s.step}
        && ItemsWith(s.stepperAt.value, Completed) == Interval(1, s.step)
  {
    ApplyAllKeepsCoherent(Initial(), actions);
    var s := ApplyAll(Initial(), actions);
    if StepperVisible(s.step) {
      StepperClasses(s.step);
    }
  }
}
